=== FILE: README.md ===
# Enemy navigation, input edges and combat rounds, in Dafny

This project models three pieces of a three.js action game:

- **The enemy path smoother.** `computeSmoothPath` is a JavaScript port of the Recast/Detour "smooth path" sample. It turns a polygon corridor into a list of waypoints using these helpers:
  - `getSteerTarget`
  - `inRange`
  - `fixupCorridor`
  - `fixupShortcuts`
  - the advance over an off-mesh connection
- **The enemy behaviour state machine.** Its states are `idle`, `patrol`, `pursue`, `attack` and `die_lol`. It also covers the per-frame `update`, the animation-finished handler, death, and the signals an enemy reacts to.
- **The player's inputs and combat ticker.** The keyboard edge tracker of the input system and the combat ticker of the player's combat mode.

The navigation-mesh queries belong to a foreign library. They appear as uninterpreted oracle functions in a `NavQuery` record, so every property proved about the smoother holds for any navigation mesh. Corridors are `seq<nat>` and points are real triples.

Where JavaScript array semantics matter, the model follows the port and not Detour's C++ original:
- `splice` clamps its start to the array length.
- Assigning past the end of an array extends it.
- Nothing truncates the array.

The lemmas ending in `Detour…`, `LosesTail…` and `KeepsNposEntries` show where the two diverge.

Modules, one per file:

| module | file | what it holds |
|---|---|---|
| `Wrappers` | wrappers.dfy | `Option`, `Result`, `First` |
| `Geometry` | geometry.dfy | `Vec3` and the `inRange` proximity test |
| `JsArray` | js_array.dfy | `slice`, `splice` and index-store semantics |
| `NavMesh` | nav_mesh.dfy | poly refs, straight-path flags, the oracle record |
| `Corridor` | corridor.dfy | `fixupCorridor`, `fixupShortcuts`, the off-mesh advance |
| `Steering` | steering.dfy | `getSteerTarget` |
| `SmoothPath` | smooth_path.dfy | `ComputePathError` and `computeSmoothPath` |
| `EnemyBehavior` | enemy.dfy | the enemy state machine over a `World` (enemy plus roster) |
| `Inputs` | inputs.dfy | `handleDown`, `handleUp`, `update`, `setConfig` and the listeners |
| `CombatMode` | combat_mode.dfy | `update`, `combatRound` and `onSignal` |

Two details of the code that are easy to misread are modelled as written:

- **Entering `attack`.** `followPursuePath` switches the behaviour to `attack` and returns without clearing `this.path` (src/Components/Game/NonPlayer/Enemy.js:407-410). `EnemyBehavior.FollowPursue` states that the attack case changes nothing but the behaviour, so the old path is kept.
- **Bow projectile target.** `projectileDestination.y - 2.5` is an expression statement whose value is discarded, so the model aims the projectile at exactly the player's position.

## Model

| member | source | states |
|---|---|---|
| Corridor.FindFurthestCommon | src/Components/Game/NonPlayer/Enemy.js:936-952 | The nested downward search returns -1 for both indices exactly when no corridor polygon was visited; otherwise it returns the pair `FurthestCommon` characterises |
| Corridor.FurthestCommonSpec | src/Components/Game/NonPlayer/Enemy.js:939-957 | The search finds nothing iff corridor and visited list share no polygon; otherwise `path[i]` is the last corridor polygon that was visited at all, and `j` is its first position in `visited`, because the inner scan never breaks |
| Corridor.LastCommonBelowSpec | src/Components/Game/NonPlayer/Enemy.js:940-952 | The same characterisation restricted to the first `n` corridor entries, i.e. the outer loop's invariant |
| Corridor.FurthestAtUnique | src/Components/Game/NonPlayer/Enemy.js:940-952 | At most one pair satisfies the search's stopping conditions |
| Corridor.FoundIsFurthest | src/Components/Game/NonPlayer/Enemy.js:943-951 | A pair meeting the loop's conditions when `found` breaks the outer loop is the furthest common pair |
| Corridor.FixupCorridor | src/Components/Game/NonPlayer/Enemy.js:954-977 | With no common polygon the corridor comes back unchanged, and the rewrite never shortens the array |
| Corridor.FixupCorridorLayout | src/Components/Game/NonPlayer/Enemy.js:961-977 | When `req` fits in the array, the result has three parts: entries `0..req-1` are the visited polygons from the last one back; the next `size` entries are the old entries behind the furthest common polygon; everything behind that is the old array's stale tail. The length is `max(len, req + size)` |
| Corridor.FixupCorridorShape | src/Components/Game/NonPlayer/Enemy.js:961-977 | The same rewrite as a single concatenation of the reversed visited prefix, the moved remainder and what the splice left behind it |
| Corridor.StoreVisitedShape | src/Components/Game/NonPlayer/Enemy.js:965-977 | The clamped splice followed by the store loop is the concatenation `front + moved + rest` |
| Corridor.FixupCorridorStoresVisited | src/Components/Game/NonPlayer/Enemy.js:974-977 | Whatever the sizes, the first `req` entries are the visited polygons reversed from the last |
| Corridor.FixupCorridorBounded | src/Components/Game/NonPlayer/Enemy.js:962-972 | If the corridor and the visited list both fit under `maxPath`, so does the rewritten corridor |
| Corridor.FixupCorridorExtendsDetour | src/Components/Game/NonPlayer/Enemy.js:959-977 | When `req` fits in the array, Detour's rewritten corridor (of length `req + size`) is a prefix of the port's result; only a stale tail differs |
| Corridor.DetourFixupCorridorShape | src/Components/Game/NonPlayer/Enemy.js:961-972 | The reference rewrite, which truncates to the new length, is the reversed visited prefix followed by the `size` moved polygons |
| Corridor.FixupCorridorLosesTailWhenVisitedOutrunsCorridor | src/Components/Game/NonPlayer/Enemy.js:962-972 | With `req` beyond the array length, the splice appends instead and the polygons behind the common one are overwritten. Corridor [1, 2] with visited [1, 3, 4, 5] gives [5, 4, 3, 1], where Detour keeps [5, 4, 3, 1, 2] |
| Corridor.NonZero | src/Components/Game/NonPlayer/Enemy.js:1000-1013 | The reference list of the link walk: a ref is in it iff it is a non-zero link of the polygon, in link order |
| Corridor.TakeNonZero | src/Components/Game/NonPlayer/Enemy.js:1000-1013 | The neighbour list is the first 16 non-zero links in link order (all of them when there are fewer), so every ref in it is a non-zero link of the polygon |
| Corridor.CutScan | src/Components/Game/NonPlayer/Enemy.js:1017-1030 | `cut` is 0 or the largest index in `2..hi` whose polygon is a neighbour; no index above it is one |
| Corridor.FixupShortcuts | src/Components/Game/NonPlayer/Enemy.js:982-1035 | Corridors shorter than 3, or whose first polygon is not resolved, are unchanged. Otherwise polygons are dropped iff a neighbour of `polys[0]` occurs at an index in `[2, min(6, len) - 1]`. In that case entries `1..cut-1` go, where `cut` is the largest such index; `polys[0]` and every later entry keep their order |
| Corridor.AdvanceScan | src/Components/Game/NonPlayer/Enemy.js:803-807 | The advance loop stops at the end of the corridor or on the connection polygon, with `polyRef == polys[npos-1]` and `prevRef` the polygon before it |
| Corridor.AdvanceFind | src/Components/Game/NonPlayer/Enemy.js:798-807 | Started from `polys[0]`, the scan stops just behind the first occurrence of the connection (at `npos = 0` when it is the first polygon), or at the end when it is absent |
| Corridor.AdvanceStopsAtFirst | src/Components/Game/NonPlayer/Enemy.js:803-807 | The loop's exit conditions pin `npos` to one past the first occurrence of the connection |
| Corridor.ShiftAndCut | src/Components/Game/NonPlayer/Enemy.js:809-812 | The shift and `splice(npos, len - npos)` leave exactly `npos` entries: entry `i` is `polys[npos + i]` where that exists, and the entries the shift did not reach, `len - npos <= i < npos`, keep their old values |
| Corridor.AdvanceOverOffMesh | src/Components/Game/NonPlayer/Enemy.js:795-812 | The whole advance: `prevRef`/`polyRef` name the connection and the polygon before it, and the new corridor has length `npos`. It starts with the polygons behind the connection, and any entry the shift did not overwrite keeps its old value |
| Corridor.AdvanceKeepsNposEntries | src/Components/Game/NonPlayer/Enemy.js:809-812 | Corridor [1, 2, 3, 4, 5] crossing connection 2 continues with [3, 4], not Detour's [3, 4, 5]; corridor [1, 2, 3] continues with [3, 2], keeping a stale entry |
| JsArray.ClampIndex | src/Components/Game/NonPlayer/Enemy.js:971 | A `slice`/`splice` index resolves into `0..len`; in-range indices are kept and negative ones count from the end |
| JsArray.Slice | src/Components/Game/NonPlayer/Enemy.js:971 | `slice` of an in-range window is that window; an empty or inverted window gives `[]` |
| JsArray.DeleteCount | src/Components/Game/NonPlayer/Enemy.js:971 | `splice` removes no more than the elements behind `start`, none for a non-positive count, and exactly the count when it fits |
| JsArray.Splice | src/Components/Game/NonPlayer/Enemy.js:971 | The spliced array's length is the old length minus the deleted count plus the inserted items |
| JsArray.StoreFront | src/Components/Game/NonPlayer/Enemy.js:975-977 | Storing `front` over the array's first entries leaves an array as long as the longer of the two |
| JsArray.ReversedPrefixAt | src/Components/Game/NonPlayer/Enemy.js:975-977 | Entry `i` of the stored prefix is `visited[len - 1 - i]` |
| Wrappers.First | src/Components/Game/NonPlayer/Enemy.js:770 | `polys[0]` is undefined exactly for an empty corridor, and is the first ref otherwise |
| Geometry.InRangeSymmetric | src/Components/Game/NonPlayer/Enemy.js:924-929 | The proximity test gives the same answer with its two points swapped |
| Geometry.InRangeComparesSquaredDistanceWithRadius | src/Components/Game/NonPlayer/Enemy.js:924-929 | Because the squared distance is compared with `r` itself, a point 0.05 away is within slop 0.01, while one 0.2 away is not |
| Geometry.AddFullDelta | src/Components/Game/NonPlayer/Enemy.js:745-751 | A scale of 1 moves the position exactly onto the steer point |
| Steering.SteerIndex | src/Components/Game/NonPlayer/Enemy.js:884-902 | The scan stops at the first point that is an off-mesh connection or lies outside the proximity test; every point before it is skipped |
| Steering.SelectSteerTarget | src/Components/Game/NonPlayer/Enemy.js:866-921 | It fails when the query fails or iff every point is skipped; otherwise it returns the position, flag and ref of the first point not skipped |
| Steering.GetSteerTarget | src/Components/Game/NonPlayer/Enemy.js:853-922 | It fails when the straight-path query fails, and otherwise iff every returned point is skipped. Otherwise it returns the position, flags and ref of the first point that is not skipped |
| Steering.OffMeshPointIsSteerTarget | src/Components/Game/NonPlayer/Enemy.js:884-892 | An off-mesh point at the head of the straight path is chosen however close it is |
| SmoothPath.Setup | src/Components/Game/NonPlayer/Enemy.js:621-706 | Each failing query yields its own `ComputePathError` and carries the query's status: start lookup, end lookup, `findPath`, and the closest-point query on a last polygon that is not the end polygon. An empty polygon path yields `NO_POLYGON_PATH_FOUND` without a status. The set-up succeeds iff every query succeeds; the corridor is then the `findPath` result, and the target is `end` when the corridor ends on the end polygon and otherwise the closest point on the last polygon |
| SmoothPath.MoveTargetStopsAtEndpoint | src/Components/Game/NonPlayer/Enemy.js:737-751 | An end or off-mesh steer point closer than one step is reached exactly |
| SmoothPath.MoveTargetTakesOneStep | src/Components/Game/NonPlayer/Enemy.js:737-751 | With an exact square root, every other move has length `stepSize` |
| SmoothPath.PushCapped | src/Components/Game/NonPlayer/Enemy.js:843-845 | A point is appended iff the path is below the cap |
| SmoothPath.RecordOffMeshShape | src/Components/Game/NonPlayer/Enemy.js:819-825 | Recording a connection appends the point once or twice and leaves an even length |
| SmoothPath.RecordOffMeshOverflowsOddCap | src/Components/Game/NonPlayer/Enemy.js:819-825 | The unguarded duplicate push takes a path one short of an odd cap to one past it |
| SmoothPath.RecordOffMeshWithinEvenCap | src/Components/Game/NonPlayer/Enemy.js:819-825 | Under an even cap the duplicate push stays within the cap |
| SmoothPath.Step | src/Components/Game/NonPlayer/Enemy.js:717-846 | One iteration stops without a new point when there is no steer target or the surface move fails. Otherwise the corridor becomes `fixupShortcuts(fixupCorridor(...))` of the move's visited polygons and the position is dropped onto its first polygon. The iteration stops, appending the target, iff the end point is reached; it crosses a reached off-mesh connection; and otherwise it continues from the new position, appended to the path. The path only grows, and stays within an even cap |
| SmoothPath.OffMeshStep | src/Components/Game/NonPlayer/Enemy.js:788-845 | The corridor is advanced over the connection. With unknown end points the position is appended and kept. Otherwise the connection point is recorded and the walk continues from the height-adjusted far end. The path only grows, and stays within an even cap |
| SmoothPath.CrossConnection | src/Components/Game/NonPlayer/Enemy.js:815-845 | The connection point is recorded once or twice to keep an even length, then the walk jumps to the far end dropped onto the first corridor polygon, which is appended while the cap allows |
| SmoothPath.Walk | src/Components/Game/NonPlayer/Enemy.js:717-846 | The loop only appends to the path, stops at once on an empty corridor or a full path, and never exceeds an even cap |
| SmoothPath.WalkFrom | src/Components/Game/NonPlayer/Enemy.js:709-717 | The walk's path starts with the start point and respects an even cap |
| SmoothPath.ComputeSmoothPath | src/Components/Game/NonPlayer/Enemy.js:603-852 | `success` is false exactly when one of the set-up queries fails (or the polygon path is empty), and then the result carries that query's error and an empty path. Every other run, including one broken off mid-loop, succeeds with a path starting at `start` that stays within an even cap |
| EnemyBehavior.Spawn | src/Components/Game/NonPlayer/Enemy.js:41-95 | A new enemy joins the roster at the end with its name, kind and patrol points. It starts in `patrol` iff it has patrol points and in `idle` otherwise, with that as its current behaviour, full health for its kind, alive, untargeted, at patrol index 0, with no path and the crucial frame not yet sent |
| EnemyBehavior.SpawnValid | src/Components/Game/NonPlayer/Enemy.js:41-95 | A newly spawned enemy whose name is not yet on the roster is in a valid world |
| EnemyBehavior.RemoveAll | src/Components/Game/NonPlayer/Enemy.js:452 | Filtering by name removes every occurrence of the name and nothing else |
| EnemyBehavior.FollowPatrol | src/Components/Game/NonPlayer/Enemy.js:373-403 | Reaching the current patrol point advances the index, wrapping to 0 after the last one; without a patrol point nothing changes. Otherwise only the path changes: a null or empty path becomes `[]`, and the first waypoint is dropped once its squared distance is at most 0.1 |
| EnemyBehavior.FollowPursue | src/Components/Game/NonPlayer/Enemy.js:405-443 | Pursuit switches to `attack` iff the player is in the triangle and within the action range, and then nothing but the behaviour changes: the old path is kept. Otherwise only the path changes: it is the fresh pursue path, without its first point exactly when its second point is within the waypoint radius |
| EnemyBehavior.AttackFrame | src/Components/Game/NonPlayer/Enemy.js:303-325 | A hit is emitted iff the crucial frame is reached, has not been sent, and the player is alive and in the triangle. At most one hit is emitted, and emitting it sets the flag |
| EnemyBehavior.Behave | src/Components/Game/NonPlayer/Enemy.js:294-326 | The behaviour switch keeps identity, health, death and targeting. It never enters or leaves `die_lol`, never clears the crucial-frame flag, and emits at most one hit. `patrol` and `pursue` run their followers and emit nothing; `attack` hits iff the crucial frame is reached and not yet sent and the player is alive and in the triangle; `idle`, `wander` and `die_lol` change nothing |
| EnemyBehavior.Sense | src/Components/Game/NonPlayer/Enemy.js:331-370 | The collider signals are emitted, and the vision hit turns a calm enemy into a pursuer; nothing else changes |
| EnemyBehavior.Update | src/Components/Game/NonPlayer/Enemy.js:291-371 | A locked world or a dead enemy does nothing. Otherwise health, death, targeting and identity are kept, and the patrol index stays inside the patrol. A live frame ends with `has_collider` and emits `capsule_collide` iff the body capsule hits the player; a calm enemy that sees the player switches to `pursue`, and one that does not see the player is unchanged |
| EnemyBehavior.FinishAnimation | src/Components/Game/NonPlayer/Enemy.js:247-272 | The end of the attack clip returns a living enemy to `pursue` with the crucial frame re-armed; any other clip changes nothing |
| EnemyBehavior.SetTargetSignal | src/Components/Game/NonPlayer/Enemy.js:465-473 | After `set_target` the enemy is targeted iff the id is its own name, and nothing else changes |
| EnemyBehavior.Die | src/Components/Game/NonPlayer/Enemy.js:445-461 | Death sets `die_lol`, `dead` and untargets the enemy, removes its name from the roster, and emits `clear_target` and the 80 XP grant |
| EnemyBehavior.ReceiveAttack | src/Components/Game/NonPlayer/Enemy.js:491-548 | An untargeted enemy ignores the attack. A targeted one loses exactly the damage. At or below zero health it dies. Otherwise a calm enemy starts pursuing with its path cleared, and any other enemy keeps its behaviour and path. The patrol index and the crucial-frame flag are always kept, and a calm enemy's path is cleared even when it dies |
| EnemyBehavior.Reset | src/Components/Game/NonPlayer/Enemy.js:549-567 | Reset restores full health, the starting behaviour, alive and untargeted, and changes nothing else about the enemy: the path, the patrol index and the crucial-frame flag are kept. It re-adds the name to the roster only if the enemy was dead, and emits `clear_target` |
| EnemyBehavior.HandlePreservesValid | src/Components/Game/NonPlayer/Enemy.js:247-572 | Every event keeps the world valid: dead exactly in `die_lol`, on the roster once while alive and never while dead, and the patrol index inside the patrol |
| EnemyBehavior.RunPreservesValid | src/Components/Game/NonPlayer/Enemy.js:247-572 | Any sequence of events keeps the world valid |
| EnemyBehavior.DeathIsFinalUntilReset | src/Components/Game/NonPlayer/Enemy.js:291-329 | Only `reset_stage` leaves `die_lol`, and a dead enemy's frames change nothing and emit nothing |
| EnemyBehavior.PursueAttacksIffInReach | src/Components/Game/NonPlayer/Enemy.js:405-411 | A pursuing enemy's frame ends in `attack` iff the player is in the triangle and in range, and in `pursue` otherwise |
| EnemyBehavior.VisionStartsPursuit | src/Components/Game/NonPlayer/Enemy.js:346-369 | An unlocked frame in which a calm (`idle`, `patrol` or `wander`) enemy's vision capsule hits the player leaves it in `pursue` |
| EnemyBehavior.LiveFrameEmitsCollider | src/Components/Game/NonPlayer/Enemy.js:328-344 | Every unlocked frame of a live enemy ends with `has_collider` (offset 2) and contains `capsule_collide` iff the body capsule hits the player |
| EnemyBehavior.AttackHitsIff | src/Components/Game/NonPlayer/Enemy.js:303-324 | An unlocked attacking frame delivers exactly one hit iff the crucial frame is reached and not yet sent, the player is alive and the player is in the targeting triangle |
| EnemyBehavior.HandleCrucial | src/Components/Game/NonPlayer/Enemy.js:303-325 | No event but the attack clip's end clears the crucial-frame flag; an event delivers at most one hit, none once the flag is set, and a hit leaves the flag set |
| EnemyBehavior.CrucialAtMostOncePerAttack | src/Components/Game/NonPlayer/Enemy.js:303-325 | Over any run in which the attack clip does not finish, at most one hit is delivered, and none if the current attack's hit was already sent |
| EnemyBehavior.AttackFinishRearms | src/Components/Game/NonPlayer/Enemy.js:247-253 | The end of the attack clip puts a living enemy back into `pursue` with the crucial frame re-armed |
| EnemyBehavior.ResetRestores | src/Components/Game/NonPlayer/Enemy.js:549-567 | Resetting a valid world gives a valid world with the enemy on the roster exactly once and at full health |
| Inputs.Press | src/Engine/Inputs.js:537-542 | Key-down sets a non-`onlyOnce` level every time, but an `onlyOnce` level and `WasPressed` only on the transition from released; an already-held `onlyOnce` binding is untouched |
| Inputs.Release | src/Engine/Inputs.js:556-558 | Key-up clears the level of non-`onlyOnce` bindings only and sets `WasLifted` iff `trackUp` |
| Inputs.Settle | src/Engine/Inputs.js:518-522 | `update` clears an `onlyOnce` level and `WasPressed` only while the binding is still pressed, and clears every set `WasLifted` of a `trackUp` binding |
| Inputs.HandleDownAt | src/Engine/Inputs.js:531-545 | `handleDown` presses exactly the bindings with the code and rewrites their flags; every other binding and flag is unchanged |
| Inputs.HandleUpAt | src/Engine/Inputs.js:547-561 | `handleUp` releases exactly the bindings with the code and rewrites their flags; every other binding and flag is unchanged |
| Inputs.Update | src/Engine/Inputs.js:517-529 | `update` settles the flags of every binding of the active configuration, leaves the flags of unbound names alone, and clears both clicks |
| Inputs.MouseDown | src/Engine/Inputs.js:468-476 | Button 0 stores the primary click, button 2 the secondary one, and other buttons change nothing |
| Inputs.ToggleHand | src/Engine/Inputs.js:479-503 | The context menu flips handedness and switches to the other configuration; nothing else in the input state changes (the write of `leftHanded` to the config store is left out) |
| Inputs.SetConfig | src/Engine/Inputs.js:507-512 | Any argument other than `"left"` selects the right-handed configuration; `"left"` changes nothing |
| Inputs.Init | src/Engine/Inputs.js:1-399 | The left-handed configuration is active whatever the page setting, `leftHanded` follows that setting, and every input reads false |
| Inputs.InitLevelTracksPressed | src/Engine/Inputs.js:1-399 | Initially every non-`onlyOnce` level equals its binding's `pressed` |
| Inputs.HandlersKeepLevelTracksPressed | src/Engine/Inputs.js:517-561 | Key-down, key-up and `update` keep every non-`onlyOnce` level equal to whether its key is held |
| Inputs.HandleDownIdempotent | src/Engine/Inputs.js:531-545 | Key repeat: a second `handleDown` of the same code changes nothing |
| Inputs.HandleUpIdempotent | src/Engine/Inputs.js:547-561 | A second `handleUp` of the same code changes nothing |
| Inputs.UpdateIdempotent | src/Engine/Inputs.js:517-529 | A second `update` with no event in between changes nothing |
| Inputs.UnboundCodeIgnored | src/Engine/Inputs.js:531-561 | A code no active binding uses changes no binding and no flag |
| Inputs.OnlyOnceFiresOnce | src/Engine/Inputs.js:517-545 | An `onlyOnce` input fires on the press, and a held key repeated after a frame does not fire it again |
| Inputs.ReleasedOnlyOnceStaysSet | src/Engine/Inputs.js:517-561 | An `onlyOnce` input pressed and released within one frame survives `update`, because only pressed bindings are cleared |
| Inputs.TappedWasPressedSurvivesUpdate | src/Engine/Inputs.js:517-561 | Likewise, a tapped key's `WasPressed` edge survives `update` |
| Inputs.InteractIsSpaceOnce | src/Engine/Inputs.js:45-54 | In both configurations `interact` is the space bar, as a one-shot input |
| CombatMode.RunRound | src/Components/Game/Player/CombatMode.js:44-57 | A round stops the ticking, resets the tick and forgets the queued action. It carries that action iff the action is truthy, and `null` otherwise |
| CombatMode.Update | src/Components/Game/Player/CombatMode.js:22-42 | Combat is entered iff `interact` is set, combat is off, and the target can be attacked; entering sets ticking and emits `enter_combat` first. On a ticking frame (already ticking, or just entered) below the interval the tick grows by `delta`. At or past the interval `combatRound` runs instead: ticking stops, the tick resets, and the round with the truthy queued action or `null` is the last effect. Outside combat, or when not ticking, nothing happens |
| CombatMode.UpdateFromInputs | src/Components/Game/Player/CombatMode.js:22-25 | Without `interact` set, a frame outside combat does nothing |
| CombatMode.OnSignal | src/Components/Game/Player/CombatMode.js:60-84 | `clear_target` clears the target and leaves combat. `active_target` sets the target and copies `canBeAttacked`. `targeted_object` only stores the distance. The logged-only signals change nothing, and no signal touches the ticker |
| CombatMode.UpdateRounds | src/Components/Game/Player/CombatMode.js:22-57 | In one frame, the rounds emitted plus ticking afterwards are at most the entries plus ticking before |
| CombatMode.StepRounds | src/Components/Game/Player/CombatMode.js:22-84 | The same balance holds for a signal as well as for a frame |
| CombatMode.RoundsBoundedByEntries | src/Components/Game/Player/CombatMode.js:22-84 | Over any run, rounds never exceed entries plus a round already under way at the start |
| CombatMode.RoundsFromInitial | src/Components/Game/Player/CombatMode.js:6-84 | From the constructor's state, `combat_round` never fires more often than `enter_combat` |
| CombatMode.StaleTickFiresOnReentry | src/Components/Game/Player/CombatMode.js:22-73 | `clear_target` leaves the tick alone, so a tick already at the interval fires a round in the same frame combat is re-entered |

## Left out

- The navigation-mesh queries are foreign library code. `findNearestPoly`, `findPath`, `closestPointOnPoly`, `findStraightPath`, `moveAlongSurface`, `getPolyHeight`, `getTileAndPolyByRef` with its link walk, and `getOffMeshConnectionPolyEndPoints` are uninterpreted oracles. The query filter, half-extents and `maxVisitedSize` are folded into them.
- Floating point is not modelled: points are real triples. `Math.sqrt` is an oracle parameter, and `Math.floor(time * 30)` is the real floor. A zero-length steer delta, where the source divides by zero, is modelled as no movement.
- The enemy's own movement is not modelled:
  - velocity integration, snapping onto the mesh, and rotation toward the target;
  - `findClosestPoint` and the per-frame pursue path queries (the destination is an input of the frame);
  - patrol/pursue speeds and `delta`.
  The enemy's position arrives with each frame.
- The targeting triangle (`checkTarget`), the capsule intersection tests and the collider segments are three.js geometry. They are boolean inputs of a frame. The model assumes the GLTF model has loaded, so the colliders exist.
- Animation is not modelled: the mixer, `fadeIntoAction` and clip cross-fades, sound, gsap, DOM health bars and damage numbers, and `targeted_object`'s screen placement. They are presentation only.
- After the death clip, the random healing-flask drop and the `setTimeout` removal from the scene are left out. They are nondeterministic and timer-driven.
- The player store's XP update is an emitted `GrantXp` effect. The signals' collision and collider objects are reduced to their tags and `offsetY`.
- Console logging in the combat mode is left out.
- EnemyBehavior.FinishAnimation: the mixer's `finished` callback runs synchronously inside `update`, from `mixer.update(delta)` (src/Components/Game/NonPlayer/Enemy.js:328), between the behaviour switch and the `die_lol` and vision checks. The model handles it as a separate `AnimationFinished` event after the frame. The end state is the same either way. The callback sets `pursue` and clears the crucial flag when the attack clip ends, unless the enemy is in `die_lol`. The vision check can only set `pursue` as well, and neither check emits anything that depends on the behaviour.
- Inputs.ToggleHand: the context-menu handler also writes the new `leftHanded` value into the config store (src/Engine/Inputs.js:484-490, 494-500). That store is shared UI state outside the input system, so the write is not modelled.
- Inputs.HandleDownAt and Inputs.HandleUpAt: `handleDown` and `handleUp` also add and remove the `active` CSS class on the element named after the binding (src/Engine/Inputs.js:534-536, 553-555). That is DOM presentation only.
- CombatMode.RunRound: the queued action is cleared even when it is falsy, where the source leaves `null` or `""` in place. Both give a `null` round, so the difference cannot be observed.
- CombatMode.OnSignal: `targeted_object` stores a distance received as an input; the source measures it from the player's and the object's transforms.
- SmoothPath.ComputeSmoothPath: the cap bound is stated for even caps only. With an odd cap, the unguarded duplicate push can exceed the cap by one point, as `SmoothPath.RecordOffMeshOverflowsOddCap` shows.
- SmoothPath.MoveTargetTakesOneStep: the step length is exact only under an exact square-root oracle. Rounding of `Math.sqrt` is outside the model.
- EnemyBehavior.FollowPursue: the stored pursue path is `computeSmoothPath` with default options, between the enemy's position and the destination given as an input of the frame. The half-extents of the destination query are folded into that input.
- The `wander` behaviour is never assigned in the source. It exists in the model only because the source compares `behavior` against it.

=== FILE: combat_mode.dfy ===
/** The player's combat mode: entering combat on `interact`, accumulating
    frame time up to the round interval, and emitting one combat round. */
module CombatMode {
  import opened Wrappers
  import Inputs

  /** `roundInterval`, in seconds. */
  const RoundInterval: real := 2.0

  datatype Combat = Combat(
    inCombat: bool,
    /** The queued action; nothing in this component queues one. */
    nextAction: Option<string>,
    combatTicking: bool,
    tick: real,
    target: bool,
    targetCanBeAttacked: bool,
    /** Distance to the targeted object, once reported. */
    targetDistance: Option<real>)

  const Initial: Combat := Combat(false, None, false, 0.0, false, false, None)

  /** Signals this component emits. */
  datatype CombatEffect = EnterCombat | CombatRound(action: Option<string>)

  /** Signals it reacts to. `start_combat`, `end_combat` and `queue_action`
      are only logged. */
  datatype Signal =
    | ActiveTarget(canBeAttacked: bool)
    | TargetedObject(distance: real)
    | ClearTarget
    | StartCombat
    | EndCombat
    | QueueAction

  /** The action a round carries: the queued one when it is truthy, `null`
      for none or for an empty string. */
  function RoundAction(next: Option<string>): Option<string> {
    if next.Some? && next.value != "" then next else None
  }

  /** `combatRound()`: stop ticking, reset the tick, and emit the round with
      the queued action (or none), which is then forgotten. The source only
      clears a truthy action; a falsy one (`null` or `""`) is left in place,
      which the model folds into `None` since both yield a `null` round. */
  function RunRound(c: Combat): (o: (Combat, CombatEffect))
    ensures !o.0.combatTicking && o.0.tick == 0.0 && o.0.nextAction.None?
    ensures o.1.CombatRound?
    ensures o.1.action.Some? <==> c.nextAction.Some? && c.nextAction.value != ""
    ensures o.1.action.Some? ==> o.1.action == c.nextAction
    ensures o.0.inCombat == c.inCombat && o.0.target == c.target && o.0.targetCanBeAttacked == c.targetCanBeAttacked
  {
    (c.(combatTicking := false, tick := 0.0, nextAction := None), CombatRound(RoundAction(c.nextAction)))
  }

  /** The entry check of `update`. */
  predicate Enters(c: Combat, interact: bool) {
    interact && !c.inCombat && c.target && c.targetCanBeAttacked
  }

  /** `update(delta)`, given the current `interact` input. */
  function Update(c: Combat, interact: bool, delta: real): (o: (Combat, seq<CombatEffect>))
    ensures o.0.inCombat <==> c.inCombat || Enters(c, interact)
    ensures o.0.target == c.target && o.0.targetCanBeAttacked == c.targetCanBeAttacked
    ensures |o.1| <= 2
    ensures (|o.1| > 0 && o.1[0] == EnterCombat) <==> Enters(c, interact)
    ensures Enters(c, interact) ==> o.0.inCombat
    ensures c.inCombat && c.combatTicking && c.tick < RoundInterval ==>
              o == (c.(tick := c.tick + delta), [])
    ensures Enters(c, interact) && c.tick < RoundInterval ==>
              o == (c.(inCombat := true, combatTicking := true, tick := c.tick + delta), [EnterCombat])
    ensures !c.inCombat && !Enters(c, interact) ==> o == (c, [])
    ensures !c.combatTicking && !Enters(c, interact) ==> o == (c, [])
    ensures ((c.inCombat && c.combatTicking) || Enters(c, interact)) && c.tick >= RoundInterval ==>
              && o.0 == c.(inCombat := true, combatTicking := false, tick := 0.0, nextAction := None)
              && |o.1| > 0 && o.1[|o.1| - 1] == CombatRound(RoundAction(c.nextAction))
              && o.1 == (if Enters(c, interact) then [EnterCombat] else []) + [CombatRound(RoundAction(c.nextAction))]
    ensures (|o.1| > 0 && o.1[|o.1| - 1].CombatRound?) <==>
              ((c.inCombat && c.combatTicking) || Enters(c, interact)) && c.tick >= RoundInterval
  {
    var (c1, entered) :=
      if Enters(c, interact) then (c.(inCombat := true, combatTicking := true), [EnterCombat])
      else (c, []);
    if c1.inCombat && c1.combatTicking then
      if c1.tick < RoundInterval then (c1.(tick := c1.tick + delta), entered)
      else
        var (c2, round) := RunRound(c1);
        (c2, entered + [round])
    else (c1, entered)
  }

  /** `update` reading `interact` from the input record. */
  function UpdateFromInputs(c: Combat, inputs: Inputs.InputState, delta: real): (o: (Combat, seq<CombatEffect>))
    ensures !Inputs.Flag(inputs.inputs, "interact").level && !c.inCombat ==> o == (c, [])
  {
    Update(c, Inputs.Flag(inputs.inputs, "interact").level, delta)
  }

  /** `onSignal`. */
  function OnSignal(c: Combat, sig: Signal): (r: Combat)
    ensures sig.ClearTarget? ==> r == c.(target := false, inCombat := false)
    ensures sig.ActiveTarget? ==> r == c.(target := true, targetCanBeAttacked := sig.canBeAttacked)
    ensures sig.TargetedObject? ==> r == c.(targetDistance := Some(sig.distance))
    ensures sig.ClearTarget? || sig.ActiveTarget? || sig.TargetedObject? || r == c
    ensures r.combatTicking == c.combatTicking && r.tick == c.tick && r.nextAction == c.nextAction
  {
    match sig
    case ActiveTarget(canBeAttacked) => c.(target := true, targetCanBeAttacked := canBeAttacked)
    case TargetedObject(distance) => c.(targetDistance := Some(distance))
    case ClearTarget => c.(target := false, inCombat := false)
    case _ => c
  }

  // ---- traces ----

  datatype CombatEvent = Frame(interact: bool, delta: real) | Received(sig: Signal)

  function Step(c: Combat, ev: CombatEvent): (Combat, seq<CombatEffect>) {
    match ev
    case Frame(interact, delta) => Update(c, interact, delta)
    case Received(sig) => (OnSignal(c, sig), [])
  }

  function Run(c: Combat, evs: seq<CombatEvent>): (o: (Combat, seq<CombatEffect>))
    decreases |evs|
  {
    if |evs| == 0 then (c, [])
    else
      var (c1, fx) := Step(c, evs[0]);
      var (c2, rest) := Run(c1, evs[1..]);
      (c2, fx + rest)
  }

  function Rounds(fx: seq<CombatEffect>): nat {
    if |fx| == 0 then 0 else (if fx[0].CombatRound? then 1 else 0) + Rounds(fx[1..])
  }

  function Entries(fx: seq<CombatEffect>): nat {
    if |fx| == 0 then 0 else (if fx[0] == EnterCombat then 1 else 0) + Entries(fx[1..])
  }

  function Ticking(c: Combat): nat {
    if c.combatTicking then 1 else 0
  }

  lemma CountsAppend(a: seq<CombatEffect>, b: seq<CombatEffect>)
    ensures Rounds(a + b) == Rounds(a) + Rounds(b)
    ensures Entries(a + b) == Entries(a) + Entries(b)
  {
    if |a| > 0 {
      assert (a + b)[0] == a[0];
      assert (a + b)[1..] == a[1..] + b;
      CountsAppend(a[1..], b);
    } else {
      assert a + b == b;
    }
  }

  /** The counts of the effect lists a frame can emit. */
  lemma FrameEffectCounts(a: Option<string>)
    ensures Rounds([EnterCombat]) == 0 && Entries([EnterCombat]) == 1
    ensures Rounds([CombatRound(a)]) == 1 && Entries([CombatRound(a)]) == 0
    ensures Rounds([EnterCombat, CombatRound(a)]) == 1 && Entries([EnterCombat, CombatRound(a)]) == 1
  {
    assert [EnterCombat][1..] == [];
    assert [CombatRound(a)][1..] == [];
    assert [EnterCombat, CombatRound(a)][1..] == [CombatRound(a)];
  }

  /** One frame: a round is paid for by the ticking flag, which only an
      entry sets. */
  lemma UpdateRounds(c: Combat, interact: bool, delta: real)
    ensures Rounds(Update(c, interact, delta).1) + Ticking(Update(c, interact, delta).0)
            <= Entries(Update(c, interact, delta).1) + Ticking(c)
  {
    FrameEffectCounts(RoundAction(c.nextAction));
    if Enters(c, interact) {
      var c1 := c.(inCombat := true, combatTicking := true);
      if c.tick < RoundInterval {
        assert Update(c, interact, delta) == (c1.(tick := c.tick + delta), [EnterCombat]);
      } else {
        assert Update(c, interact, delta) == (RunRound(c1).0, [EnterCombat] + [CombatRound(RoundAction(c.nextAction))]);
        assert [EnterCombat] + [CombatRound(RoundAction(c.nextAction))] == [EnterCombat, CombatRound(RoundAction(c.nextAction))];
      }
    } else if c.inCombat && c.combatTicking && RoundInterval <= c.tick {
      assert Update(c, interact, delta) == (RunRound(c).0, [] + [CombatRound(RoundAction(c.nextAction))]);
    }
  }

  /** One event of either kind. */
  lemma StepRounds(c: Combat, ev: CombatEvent)
    ensures Rounds(Step(c, ev).1) + Ticking(Step(c, ev).0) <= Entries(Step(c, ev).1) + Ticking(c)
  {
    match ev
    case Received(sig) =>
    case Frame(interact, delta) => UpdateRounds(c, interact, delta);
  }

  /** At most one combat round per entry into combat: over any run, the
      rounds emitted never exceed the entries plus one round already under
      way at the start. */
  lemma {:induction false} RoundsBoundedByEntries(c: Combat, evs: seq<CombatEvent>)
    ensures Rounds(Run(c, evs).1) + Ticking(Run(c, evs).0) <= Entries(Run(c, evs).1) + Ticking(c)
    decreases |evs|
  {
    if |evs| > 0 {
      var (c1, fx) := Step(c, evs[0]);
      StepRounds(c, evs[0]);
      RoundsBoundedByEntries(c1, evs[1..]);
      CountsAppend(fx, Run(c1, evs[1..]).1);
    }
  }

  /** From the initial state, rounds never outnumber entries. */
  lemma RoundsFromInitial(evs: seq<CombatEvent>)
    ensures Rounds(Run(Initial, evs).1) <= Entries(Run(Initial, evs).1)
  {
    RoundsBoundedByEntries(Initial, evs);
  }

  /** `clear_target` leaves the tick and the ticking flag as they are, so a
      tick that had already reached the interval fires a round in the very
      frame combat is entered again. */
  lemma StaleTickFiresOnReentry(c: Combat)
    requires c.inCombat && c.combatTicking && c.tick >= RoundInterval && c.target && c.targetCanBeAttacked
    ensures Update(OnSignal(OnSignal(c, ClearTarget), ActiveTarget(true)), true, 0.0).1
            == [EnterCombat, CombatRound(RoundAction(c.nextAction))]
  {
  }
}

=== FILE: corridor.dfy ===
/** The corridor rewrites of the path smoother (`fixupCorridor`,
    `fixupShortcuts` and the advance over an off-mesh connection in
    `computeSmoothPath`), with the array semantics of the JavaScript port
    rather than those of Detour's C++ original. */
module Corridor {
  import opened Wrappers
  import opened JsArray
  import opened NavMesh

  // ---------------------------------------------------------------------------
  // fixupCorridor
  // ---------------------------------------------------------------------------

  /** Index of the first occurrence of `x` in `s`. */
  function FirstIndex(s: seq<PolyRef>, x: PolyRef): (j: nat)
    requires x in s
    ensures j < |s| && s[j] == x && x !in s[..j]
  {
    if s[0] == x then 0
    else
      var j' := FirstIndex(s[1..], x);
      assert s[..1 + j'] == [s[0]] + s[1..][..j'];
      1 + j'
  }

  /** `(i, j)` is the pair the source's search settles on: `path[i]` is the last
      corridor polygon that was visited at all, and `j` is its FIRST position in
      `visited` (the inner scan runs downwards without breaking, so the last
      match it records is the smallest index). */
  ghost predicate FurthestAt(path: seq<PolyRef>, visited: seq<PolyRef>, i: nat, j: nat) {
    && i < |path| && j < |visited|
    && path[i] == visited[j]
    && (forall m :: 0 <= m < j ==> visited[m] != path[i])
    && (forall k :: i < k < |path| ==> path[k] !in visited)
  }

  /** The search result, looking only at `path[..n]`. */
  function LastCommonBelow(path: seq<PolyRef>, visited: seq<PolyRef>, n: nat): (r: Option<(nat, nat)>)
    requires n <= |path|
    ensures r.Some? ==> r.value.0 < n && r.value.1 < |visited|
    decreases n
  {
    if n == 0 then None
    else if path[n - 1] in visited then Some((n - 1, FirstIndex(visited, path[n - 1])))
    else LastCommonBelow(path, visited, n - 1)
  }

  /** `LastCommonBelow` finds nothing exactly when no polygon of `path[..n]`
      was visited, and otherwise the pair the search settles on. */
  lemma {:induction false} LastCommonBelowSpec(path: seq<PolyRef>, visited: seq<PolyRef>, n: nat)
    requires n <= |path|
    ensures LastCommonBelow(path, visited, n).None? <==> forall k :: 0 <= k < n ==> path[k] !in visited
    ensures LastCommonBelow(path, visited, n).Some? ==>
              FurthestAt(path[..n], visited, LastCommonBelow(path, visited, n).value.0, LastCommonBelow(path, visited, n).value.1)
    decreases n
  {
    if n > 0 && path[n - 1] !in visited {
      LastCommonBelowSpec(path, visited, n - 1);
      assert path[..n - 1] == path[..n][..n - 1];
    }
  }

  /** The furthest common polygon of corridor and visited set, if any. */
  function FurthestCommon(path: seq<PolyRef>, visited: seq<PolyRef>): (r: Option<(nat, nat)>)
    ensures r.Some? ==> r.value.0 < |path| && r.value.1 < |visited|
  {
    LastCommonBelow(path, visited, |path|)
  }

  /** `FurthestCommon` finds nothing exactly when corridor and visited set
      share no polygon, and otherwise the pair the search settles on. */
  lemma FurthestCommonSpec(path: seq<PolyRef>, visited: seq<PolyRef>)
    ensures FurthestCommon(path, visited).None? <==> forall k :: 0 <= k < |path| ==> path[k] !in visited
    ensures FurthestCommon(path, visited).Some? ==>
              FurthestAt(path, visited, FurthestCommon(path, visited).value.0, FurthestCommon(path, visited).value.1)
  {
    LastCommonBelowSpec(path, visited, |path|);
    assert path[..|path|] == path;
  }

  /** There is only one pair the search can settle on. */
  lemma FurthestAtUnique(path: seq<PolyRef>, visited: seq<PolyRef>, i: nat, j: nat, i': nat, j': nat)
    requires FurthestAt(path, visited, i, j) && FurthestAt(path, visited, i', j')
    ensures i == i' && j == j'
  {
    assert path[i] == visited[j] && path[i'] == visited[j'];
  }

  /** The search of `fixupCorridor` as the source writes it: two nested
      downward loops, the inner one without a `break`, `-1` for "not found". */
  method FindFurthestCommon(path: seq<PolyRef>, visited: seq<PolyRef>)
    returns (furthestPath: int, furthestVisited: int)
    ensures furthestPath == -1 <==> furthestVisited == -1
    ensures furthestPath == -1 <==> FurthestCommon(path, visited).None?
    ensures furthestPath != -1 ==> FurthestCommon(path, visited) == Some((furthestPath, furthestVisited))
  {
    furthestPath := -1;
    furthestVisited := -1;
    var i := |path| - 1;
    while i >= 0
      invariant -1 <= i < |path|
      invariant furthestPath == -1 && furthestVisited == -1
      invariant forall k :: i < k < |path| ==> path[k] !in visited
    {
      var found := false;
      var j := |visited| - 1;
      while j >= 0
        invariant -1 <= j < |visited|
        invariant !found ==> furthestPath == -1 && furthestVisited == -1
        invariant !found ==> forall m :: j < m < |visited| ==> visited[m] != path[i]
        invariant found ==> furthestPath == i && j < furthestVisited < |visited|
                            && visited[furthestVisited] == path[i]
                            && forall m :: j < m < furthestVisited ==> visited[m] != path[i]
      {
        if path[i] == visited[j] {
          furthestPath := i;
          furthestVisited := j;
          found := true;
        }
        j := j - 1;
      }
      if found {
        FoundIsFurthest(path, visited, furthestPath, furthestVisited);
        return;
      }
      i := i - 1;
    }
    FurthestCommonSpec(path, visited);
  }

  /** A pair satisfying the search's conditions is the one `FurthestCommon` returns. */
  lemma FoundIsFurthest(path: seq<PolyRef>, visited: seq<PolyRef>, i: nat, j: nat)
    requires FurthestAt(path, visited, i, j)
    ensures FurthestCommon(path, visited) == Some((i, j))
  {
    var r := FurthestCommon(path, visited);
    FurthestCommonSpec(path, visited);
    assert path[i] in visited;
    FurthestAtUnique(path, visited, r.value.0, r.value.1, i, j);
  }

  /** `fixupCorridor(pathPolys, maxPath, visited)` after it has mutated
      `pathPolys` in place: the visited polygons (from the last one back) are
      written over the front, the unvisited remainder is spliced in behind
      them, and the array is never truncated to the new length. */
  function FixupCorridor(path: seq<PolyRef>, maxPath: int, visited: seq<PolyRef>): (r: seq<PolyRef>)
    ensures FurthestCommon(path, visited).None? ==> r == path
    ensures |r| >= |path|
  {
    match FurthestCommon(path, visited)
    case None => path
    case Some((furthestPath, furthestVisited)) => FixupAt(path, maxPath, visited, furthestPath, furthestVisited)
  }

  /** The rewrite of `fixupCorridor` once the furthest common pair is known. */
  function FixupAt(path: seq<PolyRef>, maxPath: int, visited: seq<PolyRef>, furthestPath: nat, furthestVisited: nat): (r: seq<PolyRef>)
    requires furthestPath < |path| && furthestVisited < |visited|
    ensures |r| >= |path|
  {
    StoreVisited(path, maxPath, ReversedPrefix(visited, |visited| - furthestVisited), Min(furthestPath + 1, |path|))
  }

  /** The splice and the stores of `fixupCorridor`: `front` holds the visited polygons from the last one back (`req` of
      them) and `orig` is where the unvisited remainder of the corridor
      begins. */
  function StoreVisited(path: seq<PolyRef>, maxPath: int, front: seq<PolyRef>, orig: nat): (r: seq<PolyRef>)
    requires orig <= |path|
    ensures |r| >= |path| && |r| >= |front|
  {
    StoreFront(SpliceRemainder(path, |front|, orig, ClampedSize(|path|, orig, |front|, maxPath)), front)
  }

  /** `if (size) pathPolys.splice(req, size, ...pathPolys.slice(orig, orig + size))`. */
  function SpliceRemainder(path: seq<PolyRef>, req: nat, orig: nat, size: int): (r: seq<PolyRef>)
    requires orig <= |path| && size <= |path| - orig
    ensures |r| >= |path|
  {
    if size != 0 then Splice(path, req, size, Slice(path, orig, orig + size)) else path
  }

  /** `size` of `fixupCorridor`: what remains behind `orig`, cut so that
      `req + size` does not exceed `maxPath`. */
  function ClampedSize(len: nat, orig: nat, req: nat, maxPath: int): (size: int)
    requires orig <= len
    ensures size <= len - orig
    ensures req + size <= maxPath || size == len - orig
    ensures size == len - orig || req + size == maxPath
  {
    var size := Max(0, len - orig);
    if req + size > maxPath then maxPath - req else size
  }

  /** The layout `fixupCorridor` produces when the visited prefix fits inside
      the current array: the reversed visited polygons, then the `size`
      polygons after the furthest common one, then whatever stale entries
      the array held beyond that. */
  lemma FixupCorridorLayout(path: seq<PolyRef>, maxPath: int, visited: seq<PolyRef>,
                            fp: nat, fv: nat, req: nat, size: nat)
    requires FurthestCommon(path, visited) == Some((fp, fv))
    requires req == |visited| - fv && req <= |path|
    requires size == ClampedSize(|path|, fp + 1, req, maxPath)
    ensures fp + 1 + size <= |path|
    ensures |FixupCorridor(path, maxPath, visited)| == Max(|path|, req + size)
    ensures FixupCorridor(path, maxPath, visited)[..req] == ReversedPrefix(visited, req)
    ensures FixupCorridor(path, maxPath, visited)[req..req + size] == path[fp + 1..fp + 1 + size]
    ensures req + size <= |path| ==> FixupCorridor(path, maxPath, visited)[req + size..] == path[req + size..]
  {
    FixupCorridorShape(path, maxPath, visited, fp, fv, req, size);
    SplicedLayout(FixupCorridor(path, maxPath, visited), ReversedPrefix(visited, req), path, fp + 1, req, size);
  }

  /** The same layout as one concatenation: `fixupCorridor` leaves the
      reversed visited polygons, the `size` polygons behind the furthest
      common one, and whatever the array held behind the replaced stretch. */
  lemma {:induction false} FixupCorridorShape(path: seq<PolyRef>, maxPath: int, visited: seq<PolyRef>,
                           fp: nat, fv: nat, req: nat, size: nat)
    requires FurthestCommon(path, visited) == Some((fp, fv))
    requires req == |visited| - fv && req <= |path|
    requires size == ClampedSize(|path|, fp + 1, req, maxPath)
    ensures fp + 1 + size <= |path|
    ensures FixupCorridor(path, maxPath, visited)
            == ReversedPrefix(visited, req) + (path[fp + 1..fp + 1 + size] + path[req + DeleteCount(|path|, req, size)..])
  {
    assert FixupCorridor(path, maxPath, visited) == FixupAt(path, maxPath, visited, fp, fv);
    FixupAtUnfold(path, maxPath, visited, fp, fv, req);
    StoreVisitedShape(path, maxPath, ReversedPrefix(visited, req), fp + 1, req, size);
  }

  lemma StoreVisitedShape(path: seq<PolyRef>, maxPath: int, front: seq<PolyRef>, orig: nat, req: nat, size: nat)
    requires orig <= |path| && |front| == req && req <= |path|
    requires size == ClampedSize(|path|, orig, req, maxPath)
    ensures orig + size <= |path|
    ensures StoreVisited(path, maxPath, front, orig)
            == front + (path[orig..orig + size] + path[req + DeleteCount(|path|, req, size)..])
  {
    StoreVisitedUnfold(path, maxPath, front, orig, req, size);
    FrontOverSplice(path, front, req, size, orig);
  }

  lemma StoreVisitedUnfold(path: seq<PolyRef>, maxPath: int, front: seq<PolyRef>, orig: nat, req: nat, size: nat)
    requires orig <= |path| && |front| == req
    requires size == ClampedSize(|path|, orig, req, maxPath)
    ensures StoreVisited(path, maxPath, front, orig) == StoreFront(SpliceRemainder(path, req, orig, size), front)
  {
  }

  /** Whatever the corridor, the visited polygons from the last one back to
      the furthest common one end up at its front. */
  lemma FixupCorridorStoresVisited(path: seq<PolyRef>, maxPath: int, visited: seq<PolyRef>, fp: nat, fv: nat)
    requires FurthestCommon(path, visited) == Some((fp, fv))
    ensures |visited| - fv <= |FixupCorridor(path, maxPath, visited)|
    ensures FixupCorridor(path, maxPath, visited)[..|visited| - fv] == ReversedPrefix(visited, |visited| - fv)
  {
    FixupCorridorAt(path, maxPath, visited, fp, fv, |visited| - fv);
  }

  /** `fixupCorridor` once its search has found the pair `(fp, fv)`. */
  lemma FixupCorridorAt(path: seq<PolyRef>, maxPath: int, visited: seq<PolyRef>, fp: nat, fv: nat, req: nat)
    requires FurthestCommon(path, visited) == Some((fp, fv))
    requires req == |visited| - fv
    ensures fp < |path| && fv < |visited|
    ensures FixupCorridor(path, maxPath, visited) == StoreVisited(path, maxPath, ReversedPrefix(visited, req), fp + 1)
  {
    assert FixupCorridor(path, maxPath, visited) == FixupAt(path, maxPath, visited, fp, fv);
    FixupAtUnfold(path, maxPath, visited, fp, fv, req);
  }

  lemma FixupAtUnfold(path: seq<PolyRef>, maxPath: int, visited: seq<PolyRef>, fp: nat, fv: nat, req: nat)
    requires fp < |path| && fv < |visited| && req == |visited| - fv
    ensures FixupAt(path, maxPath, visited, fp, fv) == StoreVisited(path, maxPath, ReversedPrefix(visited, req), fp + 1)
  {
    assert Min(fp + 1, |path|) == fp + 1;
  }

  /** Storing `front` over the spliced array, when `req` lies inside it, as
      one concatenation. */
  lemma FrontOverSplice(path: seq<PolyRef>, front: seq<PolyRef>, req: nat, size: nat, orig: nat)
    requires |front| == req && req <= |path| && orig + size <= |path|
    ensures StoreFront(SpliceRemainder(path, req, orig, size), front)
            == front + (path[orig..orig + size] + path[req + DeleteCount(|path|, req, size)..])
  {
    var tail := path[orig..orig + size] + path[req + DeleteCount(|path|, req, size)..];
    SplicedShape(path, req, size, orig);
    StoreFrontOver(path[..req], tail, front);
  }

  lemma SplicedShape(path: seq<PolyRef>, req: nat, size: nat, orig: nat)
    requires req <= |path| && orig + size <= |path|
    ensures SpliceRemainder(path, req, orig, size)
            == path[..req] + (path[orig..orig + size] + path[req + DeleteCount(|path|, req, size)..])
  {
    if size != 0 {
      SpliceInside(path, req, size, orig);
    } else {
      assert path == path[..req] + path[req..];
    }
  }

  /** The layout of the stored-over splice: `front`, the `size` moved
      polygons, and what the array held beyond them. */
  lemma SplicedLayout(r: seq<PolyRef>, front: seq<PolyRef>, path: seq<PolyRef>, orig: nat, req: nat, size: nat)
    requires |front| == req && req <= |path| && orig + size <= |path|
    requires r == front + (path[orig..orig + size] + path[req + DeleteCount(|path|, req, size)..])
    ensures |r| == Max(|path|, req + size)
    ensures r[..req] == front
    ensures r[req..req + size] == path[orig..orig + size]
    ensures req + size <= |path| ==> r[req + size..] == path[req + size..]
  {
    ConcatLayout(front, path[orig..orig + size], path[req + DeleteCount(|path|, req, size)..]);
  }

  lemma ConcatLayout(a: seq<PolyRef>, b: seq<PolyRef>, c: seq<PolyRef>)
    ensures (a + (b + c))[..|a|] == a
    ensures (a + (b + c))[|a|..|a| + |b|] == b
    ensures (a + (b + c))[|a| + |b|..] == c
  {
  }

  /** The splice of `fixupCorridor` when `req` lies inside the array. */
  lemma SpliceInside(path: seq<PolyRef>, req: nat, size: nat, orig: nat)
    requires req <= |path| && orig + size <= |path| && size > 0
    ensures Splice(path, req, size, Slice(path, orig, orig + size))
            == path[..req] + path[orig..orig + size] + path[req + DeleteCount(|path|, req, size)..]
  {
  }

  /** Storing `front` over an array whose first `|front|` elements are `a`. */
  lemma StoreFrontOver(a: seq<PolyRef>, b: seq<PolyRef>, front: seq<PolyRef>)
    requires |a| == |front|
    ensures StoreFront(a + b, front) == front + b
  {
    assert (a + b)[|front|..] == b;
  }

  /** With the visited polygons fitting under the cap and a corridor no longer
      than the cap, the rewritten corridor stays within the cap. */
  lemma FixupCorridorBounded(path: seq<PolyRef>, maxPath: int, visited: seq<PolyRef>)
    requires |path| <= maxPath && |visited| <= maxPath
    ensures |FixupCorridor(path, maxPath, visited)| <= maxPath
  {
    match FurthestCommon(path, visited)
    case None =>
    case Some((fp, fv)) =>
      var req := |visited| - fv;
      var orig := fp + 1;
      var size := ClampedSize(|path|, orig, req, maxPath);
      assert size >= 0;
      if size != 0 {
        var items := Slice(path, orig, orig + size);
        assert |items| == size;
      }
  }

  /** Detour's own `fixupCorridor`, which returns the new length `req + size`:
      the reversed visited polygons followed by the unvisited remainder. */
  function DetourFixupCorridor(path: seq<PolyRef>, maxPath: int, visited: seq<PolyRef>): (r: seq<PolyRef>)
    ensures FurthestCommon(path, visited).None? ==> r == path
  {
    match FurthestCommon(path, visited)
    case None => path
    case Some((fp, fv)) => DetourFixupAt(path, maxPath, visited, fp, fv)
  }

  function DetourFixupAt(path: seq<PolyRef>, maxPath: int, visited: seq<PolyRef>, fp: nat, fv: nat): seq<PolyRef>
    requires fp < |path| && fv < |visited|
  {
    var req := |visited| - fv;
    var size := ClampedSize(|path|, fp + 1, req, maxPath);
    ReversedPrefix(visited, req) + (if size > 0 then path[fp + 1..fp + 1 + size] else [])
  }

  /** When the visited prefix fits inside the array, the port agrees with
      Detour on Detour's whole corridor and only keeps a stale tail behind it. */
  lemma FixupCorridorExtendsDetour(path: seq<PolyRef>, maxPath: int, visited: seq<PolyRef>)
    requires |visited| <= maxPath
    requires FurthestCommon(path, visited).Some? ==>
               |visited| - FurthestCommon(path, visited).value.1 <= |path|
    ensures |DetourFixupCorridor(path, maxPath, visited)| <= |FixupCorridor(path, maxPath, visited)|
    ensures FixupCorridor(path, maxPath, visited)[..|DetourFixupCorridor(path, maxPath, visited)|]
            == DetourFixupCorridor(path, maxPath, visited)
  {
    match FurthestCommon(path, visited)
    case None =>
    case Some((fp, fv)) => ExtendsDetourAt(path, maxPath, visited, fp, fv);
  }

  lemma ExtendsDetourAt(path: seq<PolyRef>, maxPath: int, visited: seq<PolyRef>, fp: nat, fv: nat)
    requires FurthestCommon(path, visited) == Some((fp, fv))
    requires |visited| <= maxPath && |visited| - fv <= |path|
    ensures |DetourFixupCorridor(path, maxPath, visited)| <= |FixupCorridor(path, maxPath, visited)|
    ensures FixupCorridor(path, maxPath, visited)[..|DetourFixupCorridor(path, maxPath, visited)|]
            == DetourFixupCorridor(path, maxPath, visited)
  {
    var req := |visited| - fv;
    var size: nat := ClampedSize(|path|, fp + 1, req, maxPath);
    var front := ReversedPrefix(visited, req);
    var moved := path[fp + 1..fp + 1 + size];
    var stale := path[req + DeleteCount(|path|, req, size)..];
    FixupCorridorShape(path, maxPath, visited, fp, fv, req, size);
    DetourFixupCorridorShape(path, maxPath, visited, fp, fv, req, size);
    PrefixOfShape(FixupCorridor(path, maxPath, visited), DetourFixupCorridor(path, maxPath, visited), front, moved, stale);
  }

  /** Detour's rewrite as one concatenation. */
  lemma DetourFixupCorridorShape(path: seq<PolyRef>, maxPath: int, visited: seq<PolyRef>,
                                 fp: nat, fv: nat, req: nat, size: nat)
    requires FurthestCommon(path, visited) == Some((fp, fv))
    requires req == |visited| - fv
    requires size == ClampedSize(|path|, fp + 1, req, maxPath)
    ensures fp + 1 + size <= |path|
    ensures DetourFixupCorridor(path, maxPath, visited) == ReversedPrefix(visited, req) + path[fp + 1..fp + 1 + size]
  {
    assert DetourFixupCorridor(path, maxPath, visited) == DetourFixupAt(path, maxPath, visited, fp, fv);
    if size == 0 {
      assert path[fp + 1..fp + 1 + size] == [];
    }
  }

  lemma PrefixOfShape(r: seq<PolyRef>, d: seq<PolyRef>, a: seq<PolyRef>, b: seq<PolyRef>, c: seq<PolyRef>)
    requires r == a + (b + c) && d == a + b
    ensures |d| <= |r| && r[..|d|] == d
  {
    assert r == d + c;
  }

  /** When the move visited more polygons than the corridor holds, the port
      splices at the end of the array instead of at `req`, and the polygons
      behind the furthest common one are lost: corridor [1, 2] and visited
      [1, 3, 4, 5] give [5, 4, 3, 1], where Detour keeps [5, 4, 3, 1, 2]. */
  lemma FixupCorridorLosesTailWhenVisitedOutrunsCorridor()
    ensures FixupCorridor([1, 2], 256, [1, 3, 4, 5]) == [5, 4, 3, 1]
    ensures DetourFixupCorridor([1, 2], 256, [1, 3, 4, 5]) == [5, 4, 3, 1, 2]
  {
    var path: seq<PolyRef> := [1, 2];
    var visited: seq<PolyRef> := [1, 3, 4, 5];
    assert 2 !in visited;
    assert FurthestAt(path, visited, 0, 0);
    FurthestCommonSpec(path, visited);
    FurthestAtUnique(path, visited, 0, 0, FurthestCommon(path, visited).value.0, FurthestCommon(path, visited).value.1);
    assert ReversedPrefix(visited, 4) == [5, 4, 3, 1];
  }

  // ---------------------------------------------------------------------------
  // fixupShortcuts
  // ---------------------------------------------------------------------------

  const MaxNeis: nat := 16
  const MaxLookAhead: nat := 6

  /** All non-zero refs of `links`, in link order. */
  function NonZero(links: seq<PolyRef>): (r: seq<PolyRef>)
    ensures forall n :: n in r <==> n in links && n != 0
  {
    if |links| == 0 then []
    else if links[0] != 0 then [links[0]] + NonZero(links[1..])
    else NonZero(links[1..])
  }

  /** The link walk of `fixupShortcuts`: the first `cap` non-zero refs of
      `links`, in link order. */
  function TakeNonZero(links: seq<PolyRef>, cap: nat): (r: seq<PolyRef>)
    ensures r == NonZero(links)[..Min(cap, |NonZero(links)|)]
    ensures |r| <= cap
    ensures forall n :: n in r ==> n != 0 && n in links
    ensures |r| < cap ==> forall n :: n in links && n != 0 ==> n in r
  {
    if |links| == 0 || cap == 0 then []
    else if links[0] != 0 then [links[0]] + TakeNonZero(links[1..], cap - 1)
    else TakeNonZero(links[1..], cap)
  }

  /** The largest `i` with `1 < i <= hi` and `polys[i]` in `neis`, or 0. */
  function CutScan(polys: seq<PolyRef>, neis: seq<PolyRef>, hi: int): (cut: nat)
    requires hi < |polys|
    ensures cut == 0 || (2 <= cut <= hi && polys[cut] in neis)
    ensures forall k :: Max(cut, 1) < k <= hi ==> polys[k] !in neis
    decreases hi
  {
    if hi <= 1 then 0
    else if polys[hi] in neis then hi
    else CutScan(polys, neis, hi - 1)
  }

  /** The look-ahead window of the shortcut search: indices 2 .. min(6, n) - 1. */
  predicate InWindow(i: int, n: nat) {
    2 <= i < Min(MaxLookAhead, n)
  }

  /** `fixupShortcuts(pathPolys, navMesh)`: if one of the (first 16 non-zero)
      neighbours of `polys[0]` appears among the next few polygons, the
      polygons between are removed. */
  function FixupShortcuts(polys: seq<PolyRef>, polyLinks: PolyRef -> Option<seq<PolyRef>>): (r: seq<PolyRef>)
    ensures |polys| < 3 || polyLinks(polys[0]).None? ==> r == polys
    ensures |r| <= |polys| && |r| >= Min(|polys|, 2)
    ensures |polys| > 0 ==> r[0] == polys[0]
    ensures forall k :: 1 <= k < |r| ==> r[k] == polys[k + |polys| - |r|]
    ensures |polys| >= 3 && polyLinks(polys[0]).Some? ==>
              var neis := TakeNonZero(polyLinks(polys[0]).value, MaxNeis);
              var cut := |polys| - |r| + 1;
              && (|r| == |polys| <==> forall i :: InWindow(i, |polys|) ==> polys[i] !in neis)
              && (|r| < |polys| ==> InWindow(cut, |polys|) && polys[cut] in neis
                                    && forall i :: cut < i < Min(MaxLookAhead, |polys|) ==> polys[i] !in neis)
  {
    if |polys| < 3 then polys
    else match polyLinks(polys[0])
      case None => polys
      case Some(links) =>
        var neis := TakeNonZero(links, MaxNeis);
        var cut := CutScan(polys, neis, Min(MaxLookAhead, |polys|) - 1);
        if cut > 1 then polys[..1] + polys[cut..] else polys
  }

  // ---------------------------------------------------------------------------
  // Advancing the corridor over an off-mesh connection
  // ---------------------------------------------------------------------------

  /** The state of the advance loop of `computeSmoothPath`. */
  datatype Advance = Advance(prevRef: PolyRef, polyRef: PolyRef, npos: nat, polys: seq<PolyRef>)

  /** `while (npos < polys.length && polyRef !== offMeshConRef) { prev = polyRef; polyRef = polys[npos]; npos++ }`,
      entered after at least one iteration. */
  function AdvanceScan(polys: seq<PolyRef>, offRef: PolyRef, prev: PolyRef, polyRef: PolyRef, npos: nat): (r: (PolyRef, PolyRef, nat))
    requires 1 <= npos <= |polys| && polyRef == polys[npos - 1]
    ensures npos <= r.2 <= |polys|
    ensures r.1 == polys[r.2 - 1]
    ensures forall k :: npos - 1 <= k < r.2 - 1 ==> polys[k] != offRef
    ensures r.2 == |polys| || r.1 == offRef
    ensures r.2 == npos ==> r.0 == prev
    ensures r.2 > npos ==> r.0 == polys[r.2 - 2]
    decreases |polys| - npos
  {
    if npos < |polys| && polyRef != offRef then AdvanceScan(polys, offRef, polyRef, polys[npos], npos + 1)
    else (prev, polyRef, npos)
  }

  /** The advance over the off-mesh connection `offRef`: the scan for it, the
      shift of `polys[npos..]` to the front, and `polys.splice(npos, len - npos)`,
      which leaves `npos` entries (Detour leaves `len - npos`). */
  function AdvanceOverOffMesh(polys: seq<PolyRef>, offRef: PolyRef): (r: Advance)
    requires |polys| > 0
    ensures r.npos <= |polys| && |r.polys| == r.npos
    ensures offRef !in polys ==> r.npos == |polys| && r.polys == polys
    ensures offRef in polys ==>
              var k := FirstIndex(polys, offRef);
              && r.polyRef == offRef
              && (k == 0 ==> r.npos == 0 && r.prevRef == 0)
              && (k > 0 ==> r.npos == k + 1 && r.prevRef == polys[k - 1])
    ensures forall i :: 0 <= i < r.npos && r.npos + i < |polys| ==> r.polys[i] == polys[r.npos + i]
    ensures forall i :: |polys| - r.npos <= i < r.npos ==> r.polys[i] == polys[i]
  {
    var scan := AdvanceFind(polys, offRef);
    Advance(scan.0, scan.1, scan.2, ShiftAndCut(polys, scan.2))
  }

  /** The scan for the connection polygon, from its start state. */
  function AdvanceFind(polys: seq<PolyRef>, offRef: PolyRef): (r: (PolyRef, PolyRef, nat))
    requires |polys| > 0
    ensures r.2 <= |polys|
    ensures offRef !in polys ==> r.2 == |polys|
    ensures offRef in polys ==>
              var k := FirstIndex(polys, offRef);
              && r.1 == offRef
              && (k == 0 ==> r.2 == 0 && r.0 == 0)
              && (k > 0 ==> r.2 == k + 1 && r.0 == polys[k - 1])
  {
    var r := if polys[0] == offRef then (0, polys[0], 0) else AdvanceScan(polys, offRef, polys[0], polys[0], 1);
    AdvanceStopsAtFirst(polys, offRef, r.1, r.2);
    r
  }

  /** The shift of `polys[npos..]` to the front followed by
      `polys.splice(npos, polys.length - npos)`. */
  function ShiftAndCut(polys: seq<PolyRef>, npos: nat): (r: seq<PolyRef>)
    requires npos <= |polys|
    ensures |r| == npos
    ensures npos == |polys| ==> r == polys
    ensures forall i :: 0 <= i < npos && npos + i < |polys| ==> r[i] == polys[npos + i]
    ensures forall i :: |polys| - npos <= i < npos ==> r[i] == polys[i]
  {
    var shifted := StoreFront(polys, polys[npos..]);
    var kept := Splice(shifted, npos, |polys| - npos, []);
    assert kept == shifted[..npos];
    kept
  }

  /** The scan of the advance stops just behind the first occurrence of the
      connection polygon (or, when it is the very first polygon, before it). */
  lemma AdvanceStopsAtFirst(polys: seq<PolyRef>, offRef: PolyRef, polyRef: PolyRef, npos: nat)
    requires |polys| > 0 && npos <= |polys|
    requires polys[0] == offRef ==> npos == 0 && polyRef == offRef
    requires polys[0] != offRef ==>
               && 1 <= npos && polyRef == polys[npos - 1]
               && (forall k :: 0 <= k < npos - 1 ==> polys[k] != offRef)
               && (npos == |polys| || polyRef == offRef)
    ensures offRef !in polys ==> npos == |polys|
    ensures offRef in polys ==>
              var k := FirstIndex(polys, offRef);
              && polyRef == offRef
              && (k == 0 ==> npos == 0)
              && (k > 0 ==> npos == k + 1)
  {
    if offRef in polys {
      var k := FirstIndex(polys, offRef);
      if polys[0] != offRef {
        assert k > 0;
      }
    } else if polys[0] != offRef {
      assert polys[npos - 1] in polys;
    }
  }

  /** Detour's advance keeps `polys[npos..]`, the part of the corridor behind
      the connection; the port keeps only `npos` entries. With corridor
      [1, 2, 3, 4, 5] and the connection at polygon 2, Detour continues with
      [3, 4, 5] but the port with [3, 4], which no longer reaches polygon 5.
      With corridor [1, 2, 3] the shift overwrites only the first entry, and
      the port continues with [3, 2]: the connection polygon itself stays. */
  lemma AdvanceKeepsNposEntries()
    ensures AdvanceOverOffMesh([1, 2, 3, 4, 5], 2).polys == [3, 4]
    ensures AdvanceOverOffMesh([1, 2, 3, 4, 5], 2).npos == 2
    ensures [1, 2, 3, 4, 5][2..] == [3, 4, 5]
    ensures AdvanceOverOffMesh([1, 2, 3], 2).polys == [3, 2]
  {
    var polys: seq<PolyRef> := [1, 2, 3, 4, 5];
    assert FirstIndex(polys, 2) == 1;
    var short: seq<PolyRef> := [1, 2, 3];
    assert FirstIndex(short, 2) == 1;
  }
}

=== FILE: enemy.dfy ===
/** The enemy behaviour state machine: per-frame `update` (with the patrol
    and pursue followers), the animation-finished handler, death, and the
    signals the enemy reacts to. Geometry the source takes from three.js and
    its helpers (the targeting triangle, capsule hits) arrives as inputs of a
    tick; movement of the enemy itself is not modelled, its position is an
    input of each tick. */
module EnemyBehavior {
  import opened Wrappers
  import opened Geometry
  import opened NavMesh
  import SmoothPath

  /** The `behavior` strings. `wander` is compared against in the source but never
      assigned. */
  datatype Behavior = Idle | Patrol | Wander | Pursue | Attack | DieLol

  /** The spawn point's label. */
  datatype EnemyKind = Bow | Sword

  function InitialHealth(kind: EnemyKind): real {
    match kind
    case Bow => 90.0
    case Sword => 100.0
  }

  /** `crucialFrame`: the attack-animation frame (at 30 frames per second)
      at which the hit is delivered. */
  function CrucialFrame(kind: EnemyKind): int {
    match kind
    case Bow => 80
    case Sword => 24
  }

  /** `actionRange`: how close the player must be for an attack. */
  function ActionRange(kind: EnemyKind): real {
    match kind
    case Bow => 45.0
    case Sword => 3.0
  }

  /** Distances the followers compare against: a patrol point is reached
      within 0.5 (squared: 0.25), a waypoint when the squared distance to it
      is at most 0.1. */
  const PatrolReachedSq: real := 0.25
  const WaypointReachedSq: real := 0.1

  /** Rewards and attack parameters carried by emitted signals. */
  const DeathXp: nat := 80
  const SwordDamage: nat := 10
  const SwordDamagePercentage: real := 0.5
  const ProjectileRadius: nat := 1
  const ProjectileSpeed: nat := 33
  const ColliderOffsetY: nat := 2

  datatype Enemy = Enemy(
    name: string,
    kind: EnemyKind,
    patrolPoints: seq<Vec3>,
    startingBehavior: Behavior,
    behavior: Behavior,
    health: real,
    dead: bool,
    isTargeted: bool,
    crucialFrameSent: bool,
    patrolIndex: nat,
    /** `this.path`: `null` is None. */
    path: Option<seq<Vec3>>)

  /** The enemy together with the shared enemy roster (`Avern.State.Enemies`),
      identified by name. */
  datatype World = World(enemy: Enemy, roster: seq<string>)

  /** What one frame observes about the world. */
  datatype Perception = Perception(
    /** `Avern.State.worldUpdateLocked`. */
    worldLocked: bool,
    /** The enemy's and the player's current positions. */
    position: Vec3,
    playerPos: Vec3,
    /** `checkTarget()`: the player lies in the targeting triangle. */
    inTriangle: bool,
    playerDead: bool,
    /** `this.action.time`, in seconds. */
    actionTime: real,
    /** The body and vision capsules intersect the player's capsule. */
    bodyHit: bool,
    visionHit: bool,
    /** The navigation queries, the square root, and the player's closest
        point on the navigation mesh, for the pursue path. */
    nav: NavQuery,
    sqrt: SmoothPath.Sqrt,
    pursueDest: Vec3)

  datatype Clip = AttackClip | DeathClip | OtherClip

  datatype Event =
    | Tick(p: Perception)
    /** The animation mixer's `finished` event. */
    | AnimationFinished(clip: Clip)
    | SetTarget(id: string)
    | ClearTarget
    | ReceiveDirectAttack(damage: real)
    | ResetStage

  /** Signals the enemy emits and the player's XP update. */
  datatype Effect =
    | MonsterAttack(damage: nat, percentage: real)
    | LaunchProjectile(destination: Vec3, radius: nat, speed: nat)
    | CapsuleCollide
    | HasCollider(offsetY: nat)
    | ClearTargetSignal(visible: bool, dead: Option<bool>, id: string)
    | GrantXp(xp: nat)

  datatype Outcome = Outcome(world: World, effects: seq<Effect>)

  /** The constructor: patrol when the spawn point has patrol points, idle
      otherwise, and the enemy joins the roster. It starts at the first
      patrol point with no path; `crucialFrameSent` is never initialised, so
      it starts `undefined`, which the attack test reads as false. */
  function Spawn(roster: seq<string>, name: string, kind: EnemyKind, patrolPoints: seq<Vec3>): (w: World)
    ensures w.roster == roster + [name]
    ensures w.enemy.behavior == w.enemy.startingBehavior
    ensures w.enemy.health == InitialHealth(kind) && !w.enemy.dead && !w.enemy.isTargeted
    ensures w.enemy.name == name && w.enemy.kind == kind && w.enemy.patrolPoints == patrolPoints
    ensures w.enemy.startingBehavior == Patrol <==> |patrolPoints| > 0
    ensures w.enemy.startingBehavior == Idle <==> |patrolPoints| == 0
    ensures w.enemy.patrolIndex == 0 && w.enemy.path.None? && !w.enemy.crucialFrameSent
  {
    var start := if |patrolPoints| > 0 then Patrol else Idle;
    World(Enemy(name, kind, patrolPoints, start, start, InitialHealth(kind), false, false, false, 0, None), roster + [name])
  }

  function Count(s: seq<string>, x: string): nat {
    multiset(s)[x]
  }

  /** The state every reachable world keeps. */
  predicate Valid(w: World) {
    && (w.enemy.behavior == DieLol <==> w.enemy.dead)
    && Count(w.roster, w.enemy.name) == (if w.enemy.dead then 0 else 1)
    && (w.enemy.startingBehavior == Patrol || w.enemy.startingBehavior == Idle)
    && (w.enemy.startingBehavior == Patrol <==> |w.enemy.patrolPoints| > 0)
    && (w.enemy.patrolIndex < |w.enemy.patrolPoints| || w.enemy.patrolIndex == 0)
  }

  lemma SpawnValid(roster: seq<string>, name: string, kind: EnemyKind, patrolPoints: seq<Vec3>)
    requires name !in roster
    ensures Valid(Spawn(roster, name, kind, patrolPoints))
  {
    assert multiset(roster)[name] == 0;
  }

  /** `Avern.State.Enemies.filter(e => e.name !== name)`. */
  function RemoveAll(roster: seq<string>, name: string): (r: seq<string>)
    ensures multiset(r) == multiset(roster)[name := 0]
  {
    if |roster| == 0 then []
    else
      var rest := RemoveAll(roster[1..], name);
      assert roster == [roster[0]] + roster[1..];
      assert multiset(roster) == multiset([roster[0]]) + multiset(roster[1..]);
      if roster[0] == name then rest
      else
        assert multiset([roster[0]] + rest) == multiset([roster[0]]) + multiset(rest);
        [roster[0]] + rest
  }

  // ---- update ----

  /** The squared distance between two points. */
  function DistSq(a: Vec3, b: Vec3): real {
    Dot(Sub(b, a), Sub(b, a))
  }

  /** `followPatrolPath`: advance to the next patrol point (wrapping to the
      first) once the current one is reached; otherwise walk the stored path,
      dropping its first waypoint once it is reached. */
  function FollowPatrol(e: Enemy, p: Perception): (r: Enemy)
    ensures r.behavior == e.behavior && r.health == e.health && r.dead == e.dead
    ensures e.patrolIndex < |e.patrolPoints| && DistSq(p.position, e.patrolPoints[e.patrolIndex]) < PatrolReachedSq ==>
              r == e.(patrolIndex := if e.patrolIndex + 1 < |e.patrolPoints| then e.patrolIndex + 1 else 0)
    ensures e.patrolIndex < |e.patrolPoints| || r == e
    ensures e.patrolIndex < |e.patrolPoints| && DistSq(p.position, e.patrolPoints[e.patrolIndex]) >= PatrolReachedSq ==>
              && r == e.(path := r.path)
              && (e.path.None? || |e.path.value| == 0 ==> r.path == Some([]))
              && (e.path.Some? && |e.path.value| > 0 ==>
                    r.path == if DistSq(p.position, e.path.value[0]) > WaypointReachedSq then e.path
                              else Some(e.path.value[1..]))
  {
    if e.patrolIndex >= |e.patrolPoints| then e
    else if DistSq(p.position, e.patrolPoints[e.patrolIndex]) < PatrolReachedSq then
      e.(patrolIndex := if e.patrolIndex + 1 < |e.patrolPoints| then e.patrolIndex + 1 else 0)
    else if e.path.None? || |e.path.value| == 0 then e.(path := Some([]))
    else if DistSq(p.position, e.path.value[0]) > WaypointReachedSq then e
    else e.(path := Some(e.path.value[1..]))
  }

  /** The pursue path the follower recomputes every frame. */
  function PursuePath(p: Perception): seq<Vec3> {
    SmoothPath.ComputeSmoothPath(p.nav, p.sqrt, p.position, p.pursueDest, SmoothPath.DefaultOptions).path
  }

  /** The fresh pursue path has a second point, and it is within the waypoint
      radius of the enemy. */
  predicate SecondPointReached(p: Perception) {
    |PursuePath(p)| >= 2 && DistSq(p.position, PursuePath(p)[1]) <= WaypointReachedSq
  }

  /** The player is close enough for an attack (`distanceTo < actionRange`). */
  predicate WithinActionRange(kind: EnemyKind, p: Perception) {
    DistSq(p.position, p.playerPos) < ActionRange(kind) * ActionRange(kind)
  }

  /** `followPursuePath`: attack when the player is in the targeting
      triangle and within range; otherwise store a fresh path and drop its
      first point once its second one is reached. */
  function FollowPursue(e: Enemy, p: Perception): (r: Enemy)
    requires e.behavior == Pursue
    ensures r.behavior == Attack <==> p.inTriangle && WithinActionRange(e.kind, p)
    ensures r.behavior != Attack ==> r.behavior == e.behavior && r.path.Some?
    ensures r.health == e.health && r.dead == e.dead && r.crucialFrameSent == e.crucialFrameSent
    ensures r.behavior == Attack ==> r == e.(behavior := Attack)
    ensures r.behavior != Attack ==> r == e.(path := r.path)
    ensures r.behavior != Attack && SecondPointReached(p) ==> r.path == Some(PursuePath(p)[1..])
    ensures r.behavior != Attack && !SecondPointReached(p) ==> r.path == Some(PursuePath(p))
  {
    if p.inTriangle && WithinActionRange(e.kind, p) then e.(behavior := Attack)
    else
      var path := PursuePath(p);
      if |path| < 2 || DistSq(p.position, path[1]) > WaypointReachedSq then e.(path := Some(path))
      else e.(path := Some(path[1..]))
  }

  /** The hit an attack delivers once its crucial frame is passed. */
  function CrucialEffect(kind: EnemyKind, p: Perception): Effect {
    match kind
    case Sword => MonsterAttack(SwordDamage, SwordDamagePercentage)
    // `destination.y - 2.5` in the source is an expression whose value is
    // discarded, so the projectile aims at the player's own position.
    case Bow => LaunchProjectile(p.playerPos, ProjectileRadius, ProjectileSpeed)
  }

  predicate IsCrucial(f: Effect) {
    f.MonsterAttack? || f.LaunchProjectile?
  }

  /** The attack branch: once the animation passes the crucial frame, mark
      it sent and, if the player is alive and in the triangle, deliver the
      hit. */
  function AttackFrame(e: Enemy, p: Perception): (o: (Enemy, seq<Effect>))
    ensures o.0 == e || o.0 == e.(crucialFrameSent := true)
    ensures e.crucialFrameSent ==> o == (e, [])
    ensures |o.1| <= 1 && (|o.1| == 1 ==> IsCrucial(o.1[0]) && !e.crucialFrameSent && o.0.crucialFrameSent)
    ensures |o.1| == 1 <==>
              !e.crucialFrameSent && (p.actionTime * 30.0).Floor >= CrucialFrame(e.kind) && !p.playerDead && p.inTriangle
  {
    if (p.actionTime * 30.0).Floor >= CrucialFrame(e.kind) && !e.crucialFrameSent then
      var sent := e.(crucialFrameSent := true);
      if !p.playerDead && p.inTriangle then (sent, [CrucialEffect(e.kind, p)]) else (sent, [])
    else (e, [])
  }

  /** The behaviour switch at the top of `update`. */
  function Behave(e: Enemy, p: Perception): (o: (Enemy, seq<Effect>))
    ensures SameIdentity(e, o.0) && o.0.health == e.health && o.0.dead == e.dead && o.0.isTargeted == e.isTargeted
    ensures o.0.behavior == DieLol <==> e.behavior == DieLol
    ensures e.crucialFrameSent ==> o.0.crucialFrameSent
    ensures forall k :: 0 <= k < |o.1| ==> IsCrucial(o.1[k])
    ensures |o.1| <= 1 && (|o.1| == 1 ==> !e.crucialFrameSent && o.0.crucialFrameSent)
    ensures e.behavior == Patrol ==> o == (FollowPatrol(e, p), [])
    ensures e.behavior == Pursue ==> o == (FollowPursue(e, p), [])
    ensures e.behavior == Attack ==> o.0 == e || o.0 == e.(crucialFrameSent := true)
    ensures e.behavior == Attack ==>
              (|o.1| == 1 <==> !e.crucialFrameSent && (p.actionTime * 30.0).Floor >= CrucialFrame(e.kind)
                               && !p.playerDead && p.inTriangle)
    ensures e.behavior in {Idle, Wander, DieLol} ==> o == (e, [])
  {
    match e.behavior
    case Patrol => (FollowPatrol(e, p), [])
    case Pursue => (FollowPursue(e, p), [])
    case Attack => AttackFrame(e, p)
    case _ => (e, [])
  }

  /** The collider signals and the vision check that follow the switch for
      an enemy that is not dead. */
  function Sense(e: Enemy, p: Perception): (o: (Enemy, seq<Effect>))
    ensures o.1 == (if p.bodyHit then [CapsuleCollide] else []) + [HasCollider(ColliderOffsetY)]
    ensures o.0 == e || o.0 == e.(behavior := Pursue)
    ensures o.0.behavior == Pursue <==>
              e.behavior == Pursue || (p.visionHit && e.behavior in {Wander, Idle, Patrol})
  {
    var effects := (if p.bodyHit then [CapsuleCollide] else []) + [HasCollider(ColliderOffsetY)];
    if p.visionHit && (e.behavior == Wander || e.behavior == Idle || e.behavior == Patrol) then
      (e.(behavior := Pursue), effects)
    else (e, effects)
  }

  /** The fields no frame changes. */
  predicate SameIdentity(e: Enemy, e': Enemy) {
    && e'.name == e.name && e'.kind == e.kind && e'.patrolPoints == e.patrolPoints
    && e'.startingBehavior == e.startingBehavior
  }

  /** `update(delta)`. */
  function Update(e: Enemy, p: Perception): (o: (Enemy, seq<Effect>))
    ensures p.worldLocked ==> o == (e, [])
    ensures e.behavior == DieLol ==> o == (e, [])
    ensures o.0.health == e.health && o.0.dead == e.dead && o.0.isTargeted == e.isTargeted
    ensures SameIdentity(e, o.0)
    ensures o.0.behavior == DieLol <==> e.behavior == DieLol
    ensures o.0.patrolIndex == e.patrolIndex || o.0.patrolIndex == 0 || o.0.patrolIndex < |e.patrolPoints|
    ensures e.crucialFrameSent ==> o.0.crucialFrameSent
    ensures !p.worldLocked && e.behavior != DieLol ==>
              && |o.1| > 0 && o.1[|o.1| - 1] == HasCollider(ColliderOffsetY)
              && (CapsuleCollide in o.1 <==> p.bodyHit)
    ensures !p.worldLocked && p.visionHit && e.behavior in {Idle, Patrol, Wander} ==> o.0.behavior == Pursue
    ensures !p.worldLocked && !p.visionHit && e.behavior in {Idle, Wander} ==> o.0 == e
  {
    if p.worldLocked then (e, [])
    else
      var (e1, fx) := Behave(e, p);
      if e1.behavior == DieLol then (e1, fx)
      else
        var (e2, sensed) := Sense(e1, p);
        (e2, fx + sensed)
  }

  // ---- signals ----

  /** `onMixerFinish`: the end of an attack returns to pursuit, unless the
      enemy has died meanwhile. The end of the death clip only schedules the
      removal from the scene and a random item drop. */
  function FinishAnimation(e: Enemy, clip: Clip): (r: Enemy)
    ensures clip == AttackClip && e.behavior != DieLol ==> r == e.(behavior := Pursue, crucialFrameSent := false)
    ensures clip != AttackClip || e.behavior == DieLol ==> r == e
  {
    if clip == AttackClip && e.behavior != DieLol then e.(behavior := Pursue, crucialFrameSent := false)
    else e
  }

  /** `set_target`: become targeted when the id is ours, untargeted when
      another enemy is targeted. */
  function SetTargetSignal(e: Enemy, id: string): (r: Enemy)
    ensures r == e.(isTargeted := r.isTargeted)
    ensures r.isTargeted <==> id == e.name
  {
    if id != e.name && e.isTargeted then e.(isTargeted := false)
    else if id == e.name then e.(isTargeted := true)
    else e
  }

  /** `handleDeath`. */
  function Die(w: World): (o: Outcome)
    ensures o.world.enemy == w.enemy.(behavior := DieLol, isTargeted := false, dead := true)
    ensures multiset(o.world.roster) == multiset(w.roster)[w.enemy.name := 0]
    ensures o.effects == [ClearTargetSignal(false, Some(true), w.enemy.name), GrantXp(DeathXp)]
  {
    var e := w.enemy.(behavior := DieLol, isTargeted := false, dead := true);
    Outcome(World(e, RemoveAll(w.roster, w.enemy.name)), [ClearTargetSignal(false, Some(true), w.enemy.name), GrantXp(DeathXp)])
  }

  /** `receive_direct_attack`: ignored unless targeted; a calm enemy starts
      pursuing and forgets its path, health drops by the damage, and the
      enemy dies at zero health or below. */
  function ReceiveAttack(w: World, damage: real): (o: Outcome)
    ensures !w.enemy.isTargeted ==> o == Outcome(w, [])
    ensures w.enemy.isTargeted ==> o.world.enemy.health == w.enemy.health - damage
    ensures w.enemy.isTargeted && w.enemy.health - damage <= 0.0 ==>
              && o.world.enemy.behavior == DieLol && o.world.enemy.dead && !o.world.enemy.isTargeted
              && multiset(o.world.roster) == multiset(w.roster)[w.enemy.name := 0]
              && o.effects == [ClearTargetSignal(false, Some(true), w.enemy.name), GrantXp(DeathXp)]
    ensures w.enemy.isTargeted && w.enemy.health - damage > 0.0 ==>
              && o.world.roster == w.roster && o.effects == []
              && o.world.enemy.dead == w.enemy.dead && o.world.enemy.isTargeted
              && (w.enemy.behavior in {Wander, Patrol, Idle} ==>
                    o.world.enemy.behavior == Pursue && o.world.enemy.path.None?)
              && (w.enemy.behavior !in {Wander, Patrol, Idle} ==>
                    o.world.enemy.behavior == w.enemy.behavior && o.world.enemy.path == w.enemy.path)
    ensures SameIdentity(w.enemy, o.world.enemy)
    ensures w.enemy.isTargeted ==>
              && o.world.enemy.patrolIndex == w.enemy.patrolIndex
              && o.world.enemy.crucialFrameSent == w.enemy.crucialFrameSent
              && o.world.enemy.path == (if w.enemy.behavior in {Wander, Patrol, Idle} then None else w.enemy.path)
  {
    var e := w.enemy;
    if !e.isTargeted then Outcome(w, [])
    else
      var alerted := if e.behavior in {Wander, Patrol, Idle} then e.(path := None, behavior := Pursue) else e;
      var hurt := alerted.(health := e.health - damage);
      if hurt.health <= 0.0 then Die(World(hurt, w.roster))
      else Outcome(World(hurt, w.roster), [])
  }

  /** `reset_stage`: full health, the starting behaviour, alive and untargeted,
      back on the roster if it had died. The path, the patrol index and the
      crucial-frame flag are kept. */
  function Reset(w: World): (o: Outcome)
    ensures o.world.enemy.health == InitialHealth(w.enemy.kind)
    ensures o.world.enemy.behavior == w.enemy.startingBehavior
    ensures !o.world.enemy.isTargeted && !o.world.enemy.dead
    ensures o.world.roster == if w.enemy.dead then w.roster + [w.enemy.name] else w.roster
    ensures o.effects == [ClearTargetSignal(false, None, w.enemy.name)]
    ensures o.world.enemy == w.enemy.(dead := false, isTargeted := false,
                                      health := InitialHealth(w.enemy.kind), behavior := w.enemy.startingBehavior)
  {
    var e := w.enemy;
    var roster := if e.dead then w.roster + [e.name] else w.roster;
    var e' := e.(dead := false, isTargeted := false, health := InitialHealth(e.kind), behavior := e.startingBehavior);
    Outcome(World(e', roster), [ClearTargetSignal(false, None, e.name)])
  }

  /** The enemy's reaction to one event. */
  function Handle(w: World, ev: Event): Outcome {
    match ev
    case Tick(p) =>
      var (e, fx) := Update(w.enemy, p);
      Outcome(w.(enemy := e), fx)
    case AnimationFinished(clip) => Outcome(w.(enemy := FinishAnimation(w.enemy, clip)), [])
    case SetTarget(id) => Outcome(w.(enemy := SetTargetSignal(w.enemy, id)), [])
    case ClearTarget => Outcome(w.(enemy := w.enemy.(isTargeted := false)), [])
    case ReceiveDirectAttack(damage) => ReceiveAttack(w, damage)
    case ResetStage => Reset(w)
  }

  /** A sequence of events handled in order, with all effects concatenated. */
  function Run(w: World, evs: seq<Event>): (o: Outcome)
    decreases |evs|
  {
    if |evs| == 0 then Outcome(w, [])
    else
      var first := Handle(w, evs[0]);
      var rest := Run(first.world, evs[1..]);
      Outcome(rest.world, first.effects + rest.effects)
  }

  // ---- properties ----

  /** Every event keeps the world valid: dead exactly in `die_lol`, on the
      roster exactly once while alive, patrol index inside the patrol. */
  lemma HandlePreservesValid(w: World, ev: Event)
    requires Valid(w)
    ensures Valid(Handle(w, ev).world)
  {
    match ev
    case ResetStage =>
      if w.enemy.dead {
        assert multiset(w.roster + [w.enemy.name]) == multiset(w.roster) + multiset([w.enemy.name]);
      }
    case _ =>
  }

  lemma RunPreservesValid(w: World, evs: seq<Event>)
    requires Valid(w)
    ensures Valid(Run(w, evs).world)
    decreases |evs|
  {
    if |evs| > 0 {
      HandlePreservesValid(w, evs[0]);
      RunPreservesValid(Handle(w, evs[0]).world, evs[1..]);
    }
  }

  /** `die_lol` is left only through `reset_stage`, and a dead enemy's frames
      emit nothing. */
  lemma DeathIsFinalUntilReset(w: World, ev: Event)
    requires w.enemy.behavior == DieLol && !ev.ResetStage?
    ensures Handle(w, ev).world.enemy.behavior == DieLol
    ensures ev.Tick? ==> Handle(w, ev) == Outcome(w, [])
  {
  }

  /** In pursuit, a frame switches to attacking exactly when the player is
      in the targeting triangle and within the action range. */
  lemma PursueAttacksIffInReach(w: World, p: Perception)
    requires w.enemy.behavior == Pursue && !p.worldLocked
    ensures Handle(w, Tick(p)).world.enemy.behavior == Attack <==> p.inTriangle && WithinActionRange(w.enemy.kind, p)
    ensures Handle(w, Tick(p)).world.enemy.behavior in {Attack, Pursue}
  {
  }

  /** A live enemy that is calm and sees the player starts pursuing. */
  lemma VisionStartsPursuit(w: World, p: Perception)
    requires !p.worldLocked && p.visionHit && w.enemy.behavior in {Idle, Patrol, Wander}
    ensures Handle(w, Tick(p)).world.enemy.behavior == Pursue
  {
  }

  /** Every frame of a live enemy ends by announcing its collider, and
      reports a capsule collision exactly when its body touches the player. */
  lemma LiveFrameEmitsCollider(w: World, p: Perception)
    requires !p.worldLocked && w.enemy.behavior != DieLol
    ensures |Handle(w, Tick(p)).effects| > 0
    ensures Handle(w, Tick(p)).effects[|Handle(w, Tick(p)).effects| - 1] == HasCollider(ColliderOffsetY)
    ensures CapsuleCollide in Handle(w, Tick(p)).effects <==> p.bodyHit
  {
  }

  /** An attacking frame delivers a hit exactly when the crucial frame is
      reached for the first time in this attack and the player is alive and
      in the targeting triangle. */
  lemma AttackHitsIff(w: World, p: Perception)
    requires !p.worldLocked && w.enemy.behavior == Attack
    ensures CrucialCount(Handle(w, Tick(p)).effects) == 1 <==>
              && !w.enemy.crucialFrameSent && (p.actionTime * 30.0).Floor >= CrucialFrame(w.enemy.kind)
              && !p.playerDead && p.inTriangle
  {
    var (e1, fx) := Behave(w.enemy, p);
    var (e2, sensed) := Sense(e1, p);
    CrucialCountAppend(fx, sensed);
    NoCrucialSensed(p);
    OneCrucial(fx);
  }

  function CrucialCount(effects: seq<Effect>): nat {
    if |effects| == 0 then 0
    else (if IsCrucial(effects[0]) then 1 else 0) + CrucialCount(effects[1..])
  }

  lemma CrucialCountAppend(a: seq<Effect>, b: seq<Effect>)
    ensures CrucialCount(a + b) == CrucialCount(a) + CrucialCount(b)
  {
    if |a| > 0 {
      assert (a + b)[0] == a[0];
      assert (a + b)[1..] == a[1..] + b;
      CrucialCountAppend(a[1..], b);
    } else {
      assert a + b == b;
    }
  }

  /** One event other than the end of the attack animation: `crucialFrameSent`
      is never cleared, and a hit is delivered only by the frame that sets
      it. */
  lemma HandleCrucial(w: World, ev: Event)
    requires ev != AnimationFinished(AttackClip)
    ensures w.enemy.crucialFrameSent ==> Handle(w, ev).world.enemy.crucialFrameSent
    ensures CrucialCount(Handle(w, ev).effects) <= (if w.enemy.crucialFrameSent then 0 else 1)
    ensures CrucialCount(Handle(w, ev).effects) == 1 ==> Handle(w, ev).world.enemy.crucialFrameSent
  {
    match ev
    case Tick(p) =>
      if !p.worldLocked {
        var (e1, fx) := Behave(w.enemy, p);
        if e1.behavior != DieLol {
          var (e2, sensed) := Sense(e1, p);
          CrucialCountAppend(fx, sensed);
          NoCrucialSensed(p);
        }
        OneCrucial(fx);
      }
    case ReceiveDirectAttack(damage) =>
      NoCrucial(Handle(w, ev).effects);
    case ResetStage =>
      NoCrucial(Handle(w, ev).effects);
    case _ =>
  }

  lemma NoCrucialSensed(p: Perception)
    ensures CrucialCount((if p.bodyHit then [CapsuleCollide] else []) + [HasCollider(ColliderOffsetY)]) == 0
  {
    NoCrucial((if p.bodyHit then [CapsuleCollide] else []) + [HasCollider(ColliderOffsetY)]);
  }

  lemma NoCrucial(s: seq<Effect>)
    requires forall k :: 0 <= k < |s| ==> !IsCrucial(s[k])
    ensures CrucialCount(s) == 0
  {
    if |s| > 0 {
      NoCrucial(s[1..]);
    }
  }

  lemma OneCrucial(fx: seq<Effect>)
    requires |fx| <= 1 && forall k :: 0 <= k < |fx| ==> IsCrucial(fx[k])
    ensures CrucialCount(fx) == |fx|
  {
  }

  /** The crucial-frame hit lands at most once per attack: over any run in
      which the attack animation does not finish, at most one hit is
      delivered, and none if the hit of the current attack was already sent. */
  lemma {:induction false} CrucialAtMostOncePerAttack(w: World, evs: seq<Event>)
    requires forall k :: 0 <= k < |evs| ==> evs[k] != AnimationFinished(AttackClip)
    ensures CrucialCount(Run(w, evs).effects) <= (if w.enemy.crucialFrameSent then 0 else 1)
    ensures CrucialCount(Run(w, evs).effects) == 1 ==> Run(w, evs).world.enemy.crucialFrameSent
    ensures w.enemy.crucialFrameSent ==> Run(w, evs).world.enemy.crucialFrameSent
    decreases |evs|
  {
    if |evs| > 0 {
      var first := Handle(w, evs[0]);
      HandleCrucial(w, evs[0]);
      CrucialAtMostOncePerAttack(first.world, evs[1..]);
      CrucialCountAppend(first.effects, Run(first.world, evs[1..]).effects);
    }
  }

  /** The end of the attack animation re-arms the crucial frame. */
  lemma AttackFinishRearms(w: World)
    requires w.enemy.behavior != DieLol
    ensures Handle(w, AnimationFinished(AttackClip)).world.enemy.behavior == Pursue
    ensures !Handle(w, AnimationFinished(AttackClip)).world.enemy.crucialFrameSent
  {
  }

  /** Resetting a valid world yields a valid world with the enemy alive, at
      full health, in its starting behaviour and on the roster once. */
  lemma ResetRestores(w: World)
    requires Valid(w)
    ensures Valid(Handle(w, ResetStage).world)
    ensures Count(Handle(w, ResetStage).world.roster, w.enemy.name) == 1
    ensures Handle(w, ResetStage).world.enemy.health == InitialHealth(w.enemy.kind)
  {
    HandlePreservesValid(w, ResetStage);
  }
}

=== FILE: geometry.dfy ===
/** Points as real triples and the proximity test used by the path smoother. */
module Geometry {

  datatype Vec3 = Vec3(x: real, y: real, z: real)

  function Sub(a: Vec3, b: Vec3): Vec3 {
    Vec3(a.x - b.x, a.y - b.y, a.z - b.z)
  }

  function Dot(a: Vec3, b: Vec3): real {
    a.x * b.x + a.y * b.y + a.z * b.z
  }

  /** `a + d * k` (three.js `copy(a).addScaledVector(d, k)`). */
  function AddScaled(a: Vec3, d: Vec3, k: real): Vec3 {
    Vec3(a.x + d.x * k, a.y + d.y * k, a.z + d.z * k)
  }

  function Abs(v: real): real {
    if v < 0.0 then -v else v
  }

  /** Squared distance in the horizontal (x, z) plane. */
  function HorizontalDistSq(a: Vec3, b: Vec3): real {
    (b.x - a.x) * (b.x - a.x) + (b.z - a.z) * (b.z - a.z)
  }

  /** The smoother's proximity test: the squared horizontal distance is
      compared with `r` itself (not `r * r`), the height difference with `h`. */
  predicate InRange(a: Vec3, b: Vec3, r: real, h: real) {
    HorizontalDistSq(a, b) < r && Abs(b.y - a.y) < h
  }

  /** The proximity test does not depend on the order of its two points. */
  lemma InRangeSymmetric(a: Vec3, b: Vec3, r: real, h: real)
    ensures InRange(a, b, r, h) <==> InRange(b, a, r, h)
  {
    assert (b.x - a.x) * (b.x - a.x) == (a.x - b.x) * (a.x - b.x);
    assert (b.z - a.z) * (b.z - a.z) == (a.z - b.z) * (a.z - b.z);
  }

  /** Because the radius is not squared, with the default slop of 0.01 a point
      0.05 units away horizontally already counts as "in range", although
      0.05 is five times the slop. */
  lemma InRangeComparesSquaredDistanceWithRadius()
    ensures InRange(Vec3(0.0, 0.0, 0.0), Vec3(0.05, 0.0, 0.0), 0.01, 1.0)
    ensures 0.05 > 0.01
    ensures !InRange(Vec3(0.0, 0.0, 0.0), Vec3(0.2, 0.0, 0.0), 0.01, 1.0)
  {
  }

  /** Stepping from `a` by the full difference `b - a` lands exactly on `b`. */
  lemma AddFullDelta(a: Vec3, b: Vec3)
    ensures AddScaled(a, Sub(b, a), 1.0) == b
  {
  }
}

=== FILE: inputs.dfy ===
/** Keyboard and mouse input tracking: per-binding level and edge flags set
    by key-down and key-up events and cleared once per frame by `update`. */
module Inputs {
  import opened Wrappers

  /** One entry of a key configuration: the key code, whether the key is held,
      and how its flags behave. */
  datatype Binding = Binding(code: string, pressed: bool, onlyOnce: bool, trackWasPressed: bool, trackUp: bool)

  /** A key configuration, by property name (`forward`, `interact`, ...). */
  type Config = map<string, Binding>

  /** The three booleans of the `inputs` record that belong to a property
      `x`: `x`, `xWasPressed` and `xWasLifted`. */
  datatype Flags = Flags(level: bool, wasPressed: bool, wasLifted: bool)

  /** An absent entry reads as `undefined`, which is falsy. */
  const Unset: Flags := Flags(false, false, false)

  datatype Hand = LeftHand | RightHand

  /** A mouse-down event stored in `primaryClick`/`secondaryClick`. */
  type MouseEvent = nat

  datatype InputState = InputState(
    leftHanded: bool,
    /** Which of the two configurations `this.config` refers to. */
    active: Hand,
    leftConfig: Config,
    rightConfig: Config,
    inputs: map<string, Flags>,
    /** `null`/`false` are None. */
    primaryClick: Option<MouseEvent>,
    secondaryClick: Option<MouseEvent>)

  function Flag(inputs: map<string, Flags>, name: string): Flags {
    if name in inputs then inputs[name] else Unset
  }

  function Active(s: InputState): Config {
    if s.active == LeftHand then s.leftConfig else s.rightConfig
  }

  function WithActive(s: InputState, cfg: Config): (r: InputState)
    ensures Active(r) == cfg
  {
    if s.active == LeftHand then s.(leftConfig := cfg) else s.(rightConfig := cfg)
  }

  predicate Bound(cfg: Config, name: string, code: string) {
    name in cfg && cfg[name].code == code
  }

  // ---- one binding ----

  /** `handleDown` on one matching binding. */
  function Press(b: Binding, f: Flags): (r: Flags)
    ensures !b.onlyOnce ==> r.level
    ensures !b.pressed ==> r.level
    ensures b.onlyOnce && b.pressed ==> r == f
    ensures r.wasPressed <==> f.wasPressed || (!b.pressed && b.trackWasPressed)
    ensures r.wasLifted == f.wasLifted
  {
    Flags(
      if !b.onlyOnce || !b.pressed then true else f.level,
      if !b.pressed && b.trackWasPressed then true else f.wasPressed,
      f.wasLifted)
  }

  /** `handleUp` on one matching binding. */
  function Release(b: Binding, f: Flags): (r: Flags)
    ensures r.level <==> b.onlyOnce && f.level
    ensures r.wasLifted <==> b.trackUp || f.wasLifted
    ensures r.wasPressed == f.wasPressed
  {
    Flags(
      if !b.onlyOnce then false else f.level,
      f.wasPressed,
      if b.trackUp then true else f.wasLifted)
  }

  /** `update` on one binding of the active configuration. */
  function Settle(b: Binding, f: Flags): (r: Flags)
    ensures r.level <==> f.level && !(b.pressed && b.onlyOnce)
    ensures r.wasPressed <==> f.wasPressed && !(b.pressed && b.trackWasPressed)
    ensures r.wasLifted <==> f.wasLifted && !b.trackUp
  {
    Flags(
      if b.pressed && b.onlyOnce then false else f.level,
      if b.pressed && b.trackWasPressed then false else f.wasPressed,
      if b.trackUp && f.wasLifted then false else f.wasLifted)
  }

  // ---- the handlers ----

  /** The configuration after a key event: every binding with this code
      gets the new `pressed` value. */
  function SetPressed(cfg: Config, code: string, pressed: bool): (r: Config)
    ensures r.Keys == cfg.Keys
  {
    map n | n in cfg :: if cfg[n].code == code then cfg[n].(pressed := pressed) else cfg[n]
  }

  /** The `inputs` record after a key event: the flags of every binding with
      this code are rewritten by `Press` (down) or `Release` (up). */
  function KeyFlags(inputs: map<string, Flags>, cfg: Config, code: string, down: bool): map<string, Flags> {
    map n | n in inputs.Keys + cfg.Keys ::
      if Bound(cfg, n, code) then (if down then Press(cfg[n], Flag(inputs, n)) else Release(cfg[n], Flag(inputs, n)))
      else Flag(inputs, n)
  }

  /** `handleDown(code)`: every binding with this code is pressed. */
  function HandleDown(s: InputState, code: string): (r: InputState)
    ensures r == WithActive(s, Active(r)).(inputs := r.inputs)
  {
    WithActive(s, SetPressed(Active(s), code, true)).(inputs := KeyFlags(s.inputs, Active(s), code, true))
  }

  /** `handleUp(code)`: every binding with this code is released. */
  function HandleUp(s: InputState, code: string): (r: InputState)
    ensures r == WithActive(s, Active(r)).(inputs := r.inputs)
  {
    WithActive(s, SetPressed(Active(s), code, false)).(inputs := KeyFlags(s.inputs, Active(s), code, false))
  }

  /** What `handleDown` does to one property: a binding with the code is
      pressed and its flags rewritten by `Press`; any other is untouched. */
  lemma HandleDownAt(s: InputState, code: string, n: string)
    ensures Active(HandleDown(s, code)).Keys == Active(s).Keys
    ensures Bound(Active(s), n, code) ==>
              Active(HandleDown(s, code))[n] == Active(s)[n].(pressed := true)
              && Flag(HandleDown(s, code).inputs, n) == Press(Active(s)[n], Flag(s.inputs, n))
    ensures !Bound(Active(s), n, code) ==>
              (n in Active(s) ==> Active(HandleDown(s, code))[n] == Active(s)[n])
              && Flag(HandleDown(s, code).inputs, n) == Flag(s.inputs, n)
  {
  }

  /** What `handleUp` does to one property: a binding with the code is
      released and its flags rewritten by `Release`; any other is untouched. */
  lemma HandleUpAt(s: InputState, code: string, n: string)
    ensures Active(HandleUp(s, code)).Keys == Active(s).Keys
    ensures Bound(Active(s), n, code) ==>
              Active(HandleUp(s, code))[n] == Active(s)[n].(pressed := false)
              && Flag(HandleUp(s, code).inputs, n) == Release(Active(s)[n], Flag(s.inputs, n))
    ensures !Bound(Active(s), n, code) ==>
              (n in Active(s) ==> Active(HandleUp(s, code))[n] == Active(s)[n])
              && Flag(HandleUp(s, code).inputs, n) == Flag(s.inputs, n)
  {
  }

  /** `update()`: once per frame, settle the flags of every binding of the
      active configuration and forget the mouse clicks. */
  function Update(s: InputState): (r: InputState)
    ensures r == s.(inputs := r.inputs, primaryClick := None, secondaryClick := None)
    ensures forall n :: n in Active(s) ==> Flag(r.inputs, n) == Settle(Active(s)[n], Flag(s.inputs, n))
    ensures forall n :: n !in Active(s) ==> Flag(r.inputs, n) == Flag(s.inputs, n)
  {
    var cfg := Active(s);
    var inputs' := map n | n in s.inputs.Keys :: if n in cfg then Settle(cfg[n], s.inputs[n]) else s.inputs[n];
    s.(inputs := inputs', primaryClick := None, secondaryClick := None)
  }

  /** The canvas `mousedown` listener: button 0 is the primary click,
      button 2 the secondary one; other buttons are ignored. */
  function MouseDown(s: InputState, button: int, e: MouseEvent): (r: InputState)
    ensures button == 0 ==> r == s.(primaryClick := Some(e))
    ensures button == 2 ==> r == s.(secondaryClick := Some(e))
    ensures button != 0 && button != 2 ==> r == s
  {
    if button == 0 then s.(primaryClick := Some(e))
    else if button == 2 then s.(secondaryClick := Some(e))
    else s
  }

  /** The canvas `contextmenu` listener toggles handedness and the active
      configuration together. */
  function ToggleHand(s: InputState): (r: InputState)
    ensures r.leftHanded == !s.leftHanded
    ensures r.active == (if s.leftHanded then RightHand else LeftHand)
    ensures r == s.(leftHanded := r.leftHanded, active := r.active)
  {
    if s.leftHanded then s.(leftHanded := false, active := RightHand)
    else s.(leftHanded := true, active := LeftHand)
  }

  /** `setConfig(dominantHand)`: anything but `"left"` selects the
      right-handed configuration; `"left"` changes nothing. */
  function SetConfig(s: InputState, dominantHand: string): (r: InputState)
    ensures dominantHand == "left" ==> r == s
    ensures dominantHand != "left" ==> r == s.(leftHanded := false, active := RightHand)
  {
    if dominantHand != "left" then s.(leftHanded := false, active := RightHand) else s
  }

  // ---- the shipped configurations ----

  /** A movement-style binding: level follows the key, both edges tracked. */
  function Held(code: string): Binding { Binding(code, false, false, true, true) }

  /** A command-style binding: the level fires once per press. */
  function Once(code: string): Binding { Binding(code, false, true, false, false) }

  const LeftHandedConfig: Config := map[
    "forward" := Held("KeyI"), "back" := Held("KeyK"), "left" := Held("KeyJ"), "right" := Held("KeyL"),
    "interact" := Once("Space"), "pauseMenu" := Once("KeyM"), "setTarget" := Once("KeyG"),
    "prevTarget" := Once("KeyV"), "clearTarget" := Once("ShiftLeft"),
    "action1" := Once("KeyF"), "action2" := Once("KeyD"), "action3" := Once("KeyS"), "action4" := Once("KeyA"),
    "characterMenu" := Once("KeyC"), "flask" := Once("KeyE"), "fruit" := Once("KeyR"),
    "turn" := Held("KeyO"), "strafeLeft" := Held("KeyU"), "cameraUp" := Held("KeyP"), "cameraDown" := Held("Semicolon")]

  const RightHandedConfig: Config := map[
    "forward" := Held("KeyW"), "back" := Held("KeyS"), "left" := Held("KeyA"), "right" := Held("KeyD"),
    "interact" := Once("Space"), "pauseMenu" := Once("KeyC"), "setTarget" := Once("KeyH"),
    "prevTarget" := Once("KeyN"), "clearTarget" := Once("ShiftRight"),
    "action1" := Once("KeyJ"), "action2" := Once("KeyK"), "action3" := Once("KeyL"), "action4" := Once("Semicolon"),
    "characterMenu" := Once("KeyM"), "flask" := Once("KeyI"), "fruit" := Once("KeyU"),
    "turn" := Held("KeyE"), "cameraUp" := Held("KeyR"), "cameraDown" := Held("KeyG")]

  /** The constructor: `leftHanded` follows the page's keyboard setting, but
      the left-handed configuration is active either way until `setConfig`
      runs. Every input starts out false and no click is stored. */
  function Init(keyboardConfig: string): (s: InputState)
    ensures s.active == LeftHand && Active(s) == LeftHandedConfig
    ensures s.leftHanded <==> keyboardConfig == "left"
    ensures forall n :: Flag(s.inputs, n) == Unset
  {
    InputState(keyboardConfig == "left", LeftHand, LeftHandedConfig, RightHandedConfig, map[], None, None)
  }

  // ---- properties ----

  /** For bindings whose level is not one-shot, the level input equals the
      binding's `pressed` flag. */
  predicate LevelTracksPressed(s: InputState) {
    forall n :: n in Active(s) && !Active(s)[n].onlyOnce ==> Flag(s.inputs, n).level == Active(s)[n].pressed
  }

  lemma InitLevelTracksPressed(keyboardConfig: string)
    ensures LevelTracksPressed(Init(keyboardConfig))
  {
  }

  /** Key events and frames keep the level of every non-one-shot binding
      equal to whether its key is held. */
  lemma HandlersKeepLevelTracksPressed(s: InputState, code: string)
    requires LevelTracksPressed(s)
    ensures LevelTracksPressed(HandleDown(s, code))
    ensures LevelTracksPressed(HandleUp(s, code))
    ensures LevelTracksPressed(Update(s))
  {
    var d := HandleDown(s, code);
    forall n | n in Active(d) && !Active(d)[n].onlyOnce
      ensures Flag(d.inputs, n).level == Active(d)[n].pressed
    {
      HandleDownAt(s, code, n);
    }
    var u := HandleUp(s, code);
    forall n | n in Active(u) && !Active(u)[n].onlyOnce
      ensures Flag(u.inputs, n).level == Active(u)[n].pressed
    {
      HandleUpAt(s, code, n);
    }
  }

  /** Two states with the same active configuration, the same flags for
      every name, and the same other fields are equal. */
  lemma SameState(a: InputState, b: InputState)
    requires a.leftHanded == b.leftHanded && a.active == b.active
    requires a.leftConfig == b.leftConfig && a.rightConfig == b.rightConfig
    requires a.primaryClick == b.primaryClick && a.secondaryClick == b.secondaryClick
    requires a.inputs.Keys == b.inputs.Keys
    requires forall n :: n in a.inputs ==> Flag(a.inputs, n) == Flag(b.inputs, n)
    ensures a == b
  {
    assert a.inputs == b.inputs;
  }

  /** Key repeat: a second key-down of the same code changes nothing. */
  lemma HandleDownIdempotent(s: InputState, code: string)
    ensures HandleDown(HandleDown(s, code), code) == HandleDown(s, code)
  {
    var d := HandleDown(s, code);
    RepeatKeepsConfig(s, code, true);
    RepeatKeepsFlags(s, code, true);
    SameState(HandleDown(d, code), d);
  }

  /** A second key-up of the same code changes nothing. */
  lemma HandleUpIdempotent(s: InputState, code: string)
    ensures HandleUp(HandleUp(s, code), code) == HandleUp(s, code)
  {
    var u := HandleUp(s, code);
    RepeatKeepsConfig(s, code, false);
    RepeatKeepsFlags(s, code, false);
    SameState(HandleUp(u, code), u);
  }

  /** The same key event twice, as one function of the direction. */
  function KeyEvent(s: InputState, code: string, down: bool): InputState {
    if down then HandleDown(s, code) else HandleUp(s, code)
  }

  lemma RepeatKeepsConfig(s: InputState, code: string, down: bool)
    ensures Active(KeyEvent(KeyEvent(s, code, down), code, down)) == Active(KeyEvent(s, code, down))
  {
    var d := KeyEvent(s, code, down);
    assert Active(d) == SetPressed(Active(s), code, down);
    assert Active(KeyEvent(d, code, down)) == SetPressed(Active(d), code, down);
    SetPressedTwice(Active(s), code, down);
  }

  lemma SetPressedTwice(cfg: Config, code: string, pressed: bool)
    ensures SetPressed(SetPressed(cfg, code, pressed), code, pressed) == SetPressed(cfg, code, pressed)
  {
  }

  lemma SetPressedUnbound(cfg: Config, code: string, pressed: bool)
    requires forall m :: !Bound(cfg, m, code)
    ensures SetPressed(cfg, code, pressed) == cfg
  {
    forall n | n in cfg
      ensures SetPressed(cfg, code, pressed)[n] == cfg[n]
    {
      assert !Bound(cfg, n, code);
    }
  }

  lemma RepeatKeepsFlags(s: InputState, code: string, down: bool)
    ensures KeyEvent(KeyEvent(s, code, down), code, down).inputs.Keys == KeyEvent(s, code, down).inputs.Keys
    ensures forall n :: n in KeyEvent(KeyEvent(s, code, down), code, down).inputs ==>
              Flag(KeyEvent(KeyEvent(s, code, down), code, down).inputs, n) == Flag(KeyEvent(s, code, down).inputs, n)
  {
    var d := KeyEvent(s, code, down);
    var dd := KeyEvent(d, code, down);
    forall n | n in dd.inputs
      ensures Flag(dd.inputs, n) == Flag(d.inputs, n)
    {
      if down {
        HandleDownAt(s, code, n);
        HandleDownAt(d, code, n);
      } else {
        HandleUpAt(s, code, n);
        HandleUpAt(d, code, n);
      }
    }
    if down { HandleDownAt(s, code, ""); } else { HandleUpAt(s, code, ""); }
  }

  /** A second frame without events changes nothing further. */
  lemma UpdateIdempotent(s: InputState)
    ensures Update(Update(s)) == Update(s)
  {
  }

  /** A key code that no binding of the active configuration uses changes
      no flag and no binding. */
  lemma UnboundCodeIgnored(s: InputState, code: string, n: string)
    requires forall m :: !Bound(Active(s), m, code)
    ensures Active(HandleDown(s, code)) == Active(s) && Active(HandleUp(s, code)) == Active(s)
    ensures Flag(HandleDown(s, code).inputs, n) == Flag(s.inputs, n)
    ensures Flag(HandleUp(s, code).inputs, n) == Flag(s.inputs, n)
  {
    HandleDownAt(s, code, n);
    HandleUpAt(s, code, n);
    SetPressedUnbound(Active(s), code, true);
    SetPressedUnbound(Active(s), code, false);
  }

  /** A one-shot binding fires for one frame only: held across a frame and
      repeated by the keyboard, its level stays false. */
  lemma OnlyOnceFiresOnce(s: InputState, code: string, n: string)
    requires Bound(Active(s), n, code) && Active(s)[n].onlyOnce && !Active(s)[n].pressed
    ensures Flag(HandleDown(s, code).inputs, n).level
    ensures !Flag(HandleDown(Update(HandleDown(s, code)), code).inputs, n).level
  {
    var d := HandleDown(s, code);
    HandleDownAt(s, code, n);
    var u := Update(d);
    assert Active(u) == Active(d);
    HandleDownAt(u, code, n);
  }

  /** A one-shot input pressed and released within one frame is not cleared
      by `update`, because only pressed bindings are cleared: it stays true
      until the key is pressed again and a frame passes. */
  lemma ReleasedOnlyOnceStaysSet(s: InputState, code: string, n: string)
    requires Bound(Active(s), n, code) && Active(s)[n].onlyOnce && !Active(s)[n].pressed
    ensures Flag(Update(HandleUp(HandleDown(s, code), code)).inputs, n).level
  {
    var d := HandleDown(s, code);
    HandleDownAt(s, code, n);
    var u := HandleUp(d, code);
    HandleUpAt(d, code, n);
    assert !Active(u)[n].pressed;
  }

  /** Likewise a tapped key's `WasPressed` edge survives the next frame. */
  lemma TappedWasPressedSurvivesUpdate(s: InputState, code: string, n: string)
    requires Bound(Active(s), n, code) && Active(s)[n].trackWasPressed && !Active(s)[n].pressed
    ensures Flag(Update(HandleUp(HandleDown(s, code), code)).inputs, n).wasPressed
  {
    var d := HandleDown(s, code);
    HandleDownAt(s, code, n);
    var u := HandleUp(d, code);
    HandleUpAt(d, code, n);
    assert !Active(u)[n].pressed;
  }

  /** Both shipped configurations bind `interact` to the space bar as a
      one-shot input. */
  lemma InteractIsSpaceOnce()
    ensures LeftHandedConfig["interact"] == Once("Space")
    ensures RightHandedConfig["interact"] == Once("Space")
  {
  }
}

=== FILE: js_array.dfy ===
/** The parts of JavaScript's Array semantics that the corridor rewrites
    depend on: index clamping in `slice`/`splice`, and assignment past the
    end of an array, which extends it. */
module JsArray {

  function Min(a: int, b: int): int { if a <= b then a else b }

  function Max(a: int, b: int): int { if a <= b then b else a }

  /** A relative start/end index of `slice`/`splice` resolved against an array
      of length `len`: negative values count from the end, and the result is
      clamped into `0..len`. */
  function ClampIndex(rel: int, len: nat): (k: nat)
    ensures k <= len
    ensures 0 <= rel <= len ==> k == rel
    ensures rel < 0 && len + rel >= 0 ==> k == len + rel
  {
    if rel < 0 then (if len + rel < 0 then 0 else len + rel)
    else if rel > len then len
    else rel
  }

  /** `a.slice(begin, end)`. */
  function Slice<T>(a: seq<T>, begin: int, end: int): (r: seq<T>)
    ensures 0 <= begin <= end <= |a| ==> r == a[begin..end]
    ensures 0 <= end <= begin ==> r == []
    ensures |r| <= |a|
  {
    var from := ClampIndex(begin, |a|);
    var to := ClampIndex(end, |a|);
    if from < to then a[from..to] else []
  }

  /** The number of elements `a.splice(start, deleteCount, ...)` removes. */
  function DeleteCount(len: nat, start: nat, deleteCount: int): (d: nat)
    requires start <= len
    ensures d <= len - start
    ensures deleteCount <= 0 ==> d == 0
    ensures 0 <= deleteCount <= len - start ==> d == deleteCount
  {
    if deleteCount < 0 then 0 else Min(deleteCount, len - start)
  }

  /** The array `a.splice(start, deleteCount, ...items)` leaves behind: a start
      past the end appends, a negative delete count removes nothing. */
  function Splice<T>(a: seq<T>, start: int, deleteCount: int, items: seq<T>): (r: seq<T>)
    ensures |r| == |a| - DeleteCount(|a|, ClampIndex(start, |a|), deleteCount) + |items|
  {
    var s := ClampIndex(start, |a|);
    a[..s] + items + a[s + DeleteCount(|a|, s, deleteCount)..]
  }

  /** `for (i = 0; i < |front|; i++) a[i] = front[i]`: overwrites the first
      elements, extending the array when it is shorter than `front`. */
  function StoreFront<T>(a: seq<T>, front: seq<T>): (r: seq<T>)
    ensures |r| == Max(|a|, |front|)
  {
    if |front| <= |a| then front + a[|front|..] else front
  }

  /** The first `n` elements of `s` in reverse order, starting from its last. */
  function ReversedPrefix<T>(s: seq<T>, n: nat): (r: seq<T>)
    requires n <= |s|
    ensures |r| == n
  {
    if n == 0 then [] else ReversedPrefix(s, n - 1) + [s[|s| - n]]
  }

  /** Entry `i` of the reversed prefix is the `i`-th element from the end. */
  lemma {:induction false} ReversedPrefixAt<T>(s: seq<T>, n: nat)
    requires n <= |s|
    ensures forall i :: 0 <= i < n ==> ReversedPrefix(s, n)[i] == s[|s| - 1 - i]
  {
    if n > 0 {
      ReversedPrefixAt(s, n - 1);
    }
  }
}

=== FILE: nav_mesh.dfy ===
/** The navigation-mesh queries the path smoother consumes. They belong to a
    foreign library (Recast/Detour), so they are uninterpreted oracles here:
    any total function of the right shape is a possible navigation mesh. The
    query filter, the search half-extents, `maxStraightPathPoints: 3` and
    `maxVisitedSize: 16` are fixed per call in the source and are therefore
    folded into the oracles. */
module NavMesh {
  import opened Wrappers
  import opened Geometry

  /** A polygon reference (`dtPolyRef`). */
  type PolyRef = nat

  /** A Detour status word, carried in error results. */
  type Status = nat

  /** Flags Detour attaches to straight-path points (DetourNavMeshQuery.h). */
  const StraightPathEnd: nat := 2
  const StraightPathOffMeshConnection: nat := 4

  /** `flags & bit != 0` for a single-bit mask `bit`. */
  predicate HasFlag(flags: nat, bit: nat)
    requires bit > 0
  {
    (flags / bit) % 2 == 1
  }

  /** One point of a straight path with its flag byte and polygon ref. */
  datatype StraightPoint = StraightPoint(pos: Vec3, flags: nat, ref: PolyRef)

  /** Result of `moveAlongSurface`: the clamped position and the polygons
      the move passed through, in order. */
  datatype SurfaceMove = SurfaceMove(position: Vec3, visited: seq<PolyRef>)

  /** Result of `getOffMeshConnectionPolyEndPoints`. */
  datatype EndPoints = EndPoints(start: Vec3, end: Vec3)

  datatype NavQuery = NavQuery(
    /** `findNearestPoly(p)`: the nearest polygon ref. */
    findNearestPoly: Vec3 -> Result<PolyRef, Status>,
    /** `findPath(startRef, endRef, start, end, maxPathPolys)`: a polygon corridor. */
    findPath: (PolyRef, PolyRef, Vec3, Vec3, int) -> Result<seq<PolyRef>, Status>,
    /** `closestPointOnPoly(ref, p)`. */
    closestPointOnPoly: (PolyRef, Vec3) -> Result<Vec3, Status>,
    /** `findStraightPath(start, end, corridor)`: at most three steer points. */
    findStraightPath: (Vec3, Vec3, seq<PolyRef>) -> Option<seq<StraightPoint>>,
    /** `moveAlongSurface(ref, from, to)`. */
    moveAlongSurface: (PolyRef, Vec3, Vec3) -> Option<SurfaceMove>,
    /** `getPolyHeight(ref, p)`; the ref is None when the source passes
        `polys[0]` of an empty corridor (`undefined`). */
    getPolyHeight: (Option<PolyRef>, Vec3) -> Option<real>,
    /** `getTileAndPolyByRef(ref)` followed by the walk over the polygon's
        link list: the neighbour refs of each link, in link order. */
    polyLinks: PolyRef -> Option<seq<PolyRef>>,
    /** `getOffMeshConnectionPolyEndPoints(prevRef, ref)`. */
    offMeshEndPoints: (PolyRef, PolyRef) -> Option<EndPoints>
  )
}

=== FILE: smooth_path.dfy ===
/** `computeSmoothPath`: nearest-polygon lookup, polygon path search, then
    the iterative walk along the corridor that records a smooth point list. */
module SmoothPath {
  import opened Wrappers
  import opened Geometry
  import opened NavMesh
  import opened Corridor
  import opened Steering

  /** The recognised options; the filter and half-extents are folded into the
      navigation queries. */
  datatype Options = Options(maxSmoothPathPoints: int, maxPathPolys: int, stepSize: real, slop: real)

  /** The values the source falls back to when an option is absent. */
  const DefaultOptions: Options := Options(48, 256, 0.5, 0.01)

  /** `ComputePathError`. */
  datatype ErrorKind =
    | StartNearestPolyFailed
    | EndNearestPolyFailed
    | FindPathFailed
    | NoPolygonPathFound
    | NoClosestPointOnLastPolygonFound

  datatype PathError = PathError(kind: ErrorKind, status: Option<Status>)

  /** `{ success, error?, path }`. */
  datatype PathResult = PathResult(success: bool, error: Option<PathError>, path: seq<Vec3>)

  /** What the first three steps hand to the walk: the polygon corridor and the
      position to walk toward. */
  datatype Plan = Plan(polys: seq<PolyRef>, target: Vec3)

  /** Every query of the set-up succeeds: both nearest-polygon lookups, a
      non-empty polygon path, and, when that path stops short of the end
      polygon, the closest-point query on its last polygon. */
  predicate QueriesSucceed(nav: NavQuery, start: Vec3, end: Vec3, opts: Options) {
    && nav.findNearestPoly(start).Success?
    && nav.findNearestPoly(end).Success?
    && var found := nav.findPath(nav.findNearestPoly(start).value, nav.findNearestPoly(end).value,
                                 start, end, opts.maxPathPolys);
       && found.Success? && |found.value| > 0
       && (found.value[|found.value| - 1] != nav.findNearestPoly(end).value ==>
             nav.closestPointOnPoly(found.value[|found.value| - 1], end).Success?)
  }

  /** Nearest polygons of both ends, the polygon path between them, and the
      target clamped onto the last polygon when the path stops short. */
  function Setup(nav: NavQuery, start: Vec3, end: Vec3, opts: Options): (r: Result<Plan, PathError>)
    ensures nav.findNearestPoly(start).Failure? ==>
              r == Failure(PathError(StartNearestPolyFailed, Some(nav.findNearestPoly(start).error)))
    ensures nav.findNearestPoly(start).Success? && nav.findNearestPoly(end).Failure? ==>
              r == Failure(PathError(EndNearestPolyFailed, Some(nav.findNearestPoly(end).error)))
    ensures nav.findNearestPoly(start).Success? && nav.findNearestPoly(end).Success? ==>
              var endRef := nav.findNearestPoly(end).value;
              var found := nav.findPath(nav.findNearestPoly(start).value, endRef, start, end, opts.maxPathPolys);
              && (found.Failure? ==> r == Failure(PathError(FindPathFailed, Some(found.error))))
              && (found == Success([]) ==> r == Failure(PathError(NoPolygonPathFound, None)))
              && (found.Success? && |found.value| > 0 ==>
                    var last := found.value[|found.value| - 1];
                    && (last == endRef ==> r == Success(Plan(found.value, end)))
                    && (last != endRef && nav.closestPointOnPoly(last, end).Failure? ==>
                          r == Failure(PathError(NoClosestPointOnLastPolygonFound,
                                                 Some(nav.closestPointOnPoly(last, end).error))))
                    && (last != endRef && nav.closestPointOnPoly(last, end).Success? ==>
                          r == Success(Plan(found.value, nav.closestPointOnPoly(last, end).value))))
    ensures r.Success? <==> QueriesSucceed(nav, start, end, opts)
    ensures r.Failure? ==> (r.error.status.None? <==> r.error.kind == NoPolygonPathFound)
    ensures r.Success? ==>
              && nav.findNearestPoly(start).Success?
              && nav.findNearestPoly(end).Success?
              && nav.findPath(nav.findNearestPoly(start).value, nav.findNearestPoly(end).value,
                              start, end, opts.maxPathPolys) == Success(r.value.polys)
              && |r.value.polys| > 0
    ensures r.Success? && r.value.polys[|r.value.polys| - 1] == nav.findNearestPoly(end).value ==>
              r.value.target == end
    ensures r.Success? && r.value.polys[|r.value.polys| - 1] != nav.findNearestPoly(end).value ==>
              nav.closestPointOnPoly(r.value.polys[|r.value.polys| - 1], end) == Success(r.value.target)
  {
    match nav.findNearestPoly(start)
    case Failure(s) => Failure(PathError(StartNearestPolyFailed, Some(s)))
    case Success(startRef) =>
      match nav.findNearestPoly(end)
      case Failure(s) => Failure(PathError(EndNearestPolyFailed, Some(s)))
      case Success(endRef) =>
        match nav.findPath(startRef, endRef, start, end, opts.maxPathPolys)
        case Failure(s) => Failure(PathError(FindPathFailed, Some(s)))
        case Success(polys) =>
          if |polys| == 0 then Failure(PathError(NoPolygonPathFound, None))
          else if polys[|polys| - 1] == endRef then Success(Plan(polys, end))
          else
            match nav.closestPointOnPoly(polys[|polys| - 1], end)
            case Failure(s) => Failure(PathError(NoClosestPointOnLastPolygonFound, Some(s)))
            case Success(p) => Success(Plan(polys, p))
  }

  /** The square root the source takes with `Math.sqrt`; floating point is
      not modelled, so it is a parameter. */
  type Sqrt = real -> real

  predicate ExactSqrt(sqrt: Sqrt, x: real) {
    sqrt(x) >= 0.0 && sqrt(x) * sqrt(x) == x
  }

  /** The scale applied to the delta toward the steer point: the whole delta
      when an end or off-mesh point is closer than one step, otherwise one
      step's worth (`stepSize / len`; a zero `len`, where the source divides
      by zero, leaves the position where it is). */
  function StepScale(len: real, stepSize: real, stopsAtPoint: bool): real {
    if stopsAtPoint && len < stepSize then 1.0
    else if len == 0.0 then 0.0
    else stepSize / len
  }

  /** The point `moveAlongSurface` is asked to reach. */
  function MoveTarget(sqrt: Sqrt, iterPos: Vec3, steerPos: Vec3, flags: nat, stepSize: real): Vec3 {
    var delta := Sub(steerPos, iterPos);
    var stopsAtPoint := HasFlag(flags, StraightPathEnd) || HasFlag(flags, StraightPathOffMeshConnection);
    AddScaled(iterPos, delta, StepScale(sqrt(Dot(delta, delta)), stepSize, stopsAtPoint))
  }

  /** An end or off-mesh point closer than one step is reached exactly. */
  lemma MoveTargetStopsAtEndpoint(sqrt: Sqrt, iterPos: Vec3, steerPos: Vec3, flags: nat, stepSize: real)
    requires HasFlag(flags, StraightPathEnd) || HasFlag(flags, StraightPathOffMeshConnection)
    requires sqrt(Dot(Sub(steerPos, iterPos), Sub(steerPos, iterPos))) < stepSize
    ensures MoveTarget(sqrt, iterPos, steerPos, flags, stepSize) == steerPos
  {
    AddFullDelta(iterPos, steerPos);
  }

  /** With an exact square root, every other move is exactly one step long:
      the squared length of the move is `stepSize * stepSize`. */
  lemma MoveTargetTakesOneStep(sqrt: Sqrt, iterPos: Vec3, steerPos: Vec3, flags: nat, stepSize: real)
    requires ExactSqrt(sqrt, Dot(Sub(steerPos, iterPos), Sub(steerPos, iterPos)))
    requires sqrt(Dot(Sub(steerPos, iterPos), Sub(steerPos, iterPos))) != 0.0
    requires !(HasFlag(flags, StraightPathEnd) || HasFlag(flags, StraightPathOffMeshConnection))
             || sqrt(Dot(Sub(steerPos, iterPos), Sub(steerPos, iterPos))) >= stepSize
    ensures var m := Sub(MoveTarget(sqrt, iterPos, steerPos, flags, stepSize), iterPos);
            Dot(m, m) == stepSize * stepSize
  {
    var d := Sub(steerPos, iterPos);
    var len := sqrt(Dot(d, d));
    var k := stepSize / len;
    var m := Sub(MoveTarget(sqrt, iterPos, steerPos, flags, stepSize), iterPos);
    assert m == Vec3(d.x * k, d.y * k, d.z * k);
    DotScaled(d, k);
    StepLength(k, len, stepSize);
  }

  lemma DotScaled(d: Vec3, k: real)
    ensures Dot(Vec3(d.x * k, d.y * k, d.z * k), Vec3(d.x * k, d.y * k, d.z * k)) == (k * k) * Dot(d, d)
  {
    ScaledSquare(d.x, k);
    ScaledSquare(d.y, k);
    ScaledSquare(d.z, k);
    Distribute(k * k, d.x * d.x, d.y * d.y, d.z * d.z);
  }

  lemma ScaledSquare(a: real, k: real)
    ensures (a * k) * (a * k) == (k * k) * (a * a)
  {
  }

  lemma Distribute(q: real, a: real, b: real, c: real)
    ensures q * (a + b + c) == q * a + q * b + q * c
  {
  }

  lemma StepLength(k: real, len: real, stepSize: real)
    requires len != 0.0 && k == stepSize / len
    ensures (k * k) * (len * len) == stepSize * stepSize
  {
    assert k * len == stepSize;
    assert (k * k) * (len * len) == (k * len) * (k * len);
  }

  /** `p` with its height replaced when the height query succeeded. */
  function WithHeight(p: Vec3, height: Option<real>): Vec3 {
    if height.Some? then Vec3(p.x, height.value, p.z) else p
  }

  /** `if (smoothPath.length < max) smoothPath.push(p)`. */
  function PushCapped(path: seq<Vec3>, p: Vec3, max: int): (r: seq<Vec3>)
    ensures |path| < max ==> r == path + [p]
    ensures |path| >= max ==> r == path
  {
    if |path| < max then path + [p] else path
  }

  /** The point pushed when an off-mesh connection is reached, pushed a
      second time when that leaves the path with an odd length. */
  function RecordOffMesh(path: seq<Vec3>, p: Vec3): seq<Vec3> {
    var once := path + [p];
    if |once| % 2 == 1 then once + [p] else once
  }

  /** Recording an off-mesh connection leaves an even-length path that
      extends the old one by one or two copies of the point. */
  lemma RecordOffMeshShape(path: seq<Vec3>, p: Vec3)
    ensures |RecordOffMesh(path, p)| % 2 == 0
    ensures RecordOffMesh(path, p)[..|path|] == path
    ensures |path| + 1 <= |RecordOffMesh(path, p)| <= |path| + 2
    ensures forall k :: |path| <= k < |RecordOffMesh(path, p)| ==> RecordOffMesh(path, p)[k] == p
  {
  }

  /** The second push is not checked against the cap: one short of an odd cap,
      recording an off-mesh connection ends one point past the cap. */
  lemma RecordOffMeshOverflowsOddCap(path: seq<Vec3>, p: Vec3, max: int)
    requires max % 2 == 1 && |path| == max - 1
    ensures |path| < max
    ensures |RecordOffMesh(path, p)| == max + 1
  {
  }

  /** With an even cap the double push stays within it. */
  lemma RecordOffMeshWithinEvenCap(path: seq<Vec3>, p: Vec3, max: int)
    requires max % 2 == 0 && |path| < max
    ensures |RecordOffMesh(path, p)| <= max
  {
  }

  /** What stays fixed during the walk. */
  datatype Env = Env(nav: NavQuery, sqrt: Sqrt, opts: Options, target: Vec3)

  /** The loop variables: `iterPos`, `polys` and `smoothPath`. */
  datatype Iter = Iter(pos: Vec3, polys: seq<PolyRef>, path: seq<Vec3>)

  /** One loop iteration either breaks out with the final path or continues. */
  datatype StepOutcome = Stop(path: seq<Vec3>) | Continue(next: Iter)

  function Cap(env: Env): int { env.opts.maxSmoothPathPoints }

  /** The steer target of an iteration. */
  function SteerOf(env: Env, st: Iter): Option<SteerTarget> {
    GetSteerTarget(env.nav, st.pos, env.target, env.opts.slop, st.polys)
  }

  /** The surface move toward `steer`, from the first corridor polygon. */
  function MoveOf(env: Env, st: Iter, steer: SteerTarget): Option<SurfaceMove>
    requires |st.polys| > 0
  {
    env.nav.moveAlongSurface(st.polys[0], st.pos, MoveTarget(env.sqrt, st.pos, steer.pos, steer.flags, env.opts.stepSize))
  }

  /** The corridor after `fixupCorridor` and `fixupShortcuts`. */
  function NextCorridor(env: Env, polys: seq<PolyRef>, visited: seq<PolyRef>): seq<PolyRef> {
    FixupShortcuts(FixupCorridor(polys, env.opts.maxPathPolys, visited), env.nav.polyLinks)
  }

  /** `p` dropped onto the first polygon of `polys` when its height is known. */
  function Landed(env: Env, polys: seq<PolyRef>, p: Vec3): Vec3 {
    WithHeight(p, env.nav.getPolyHeight(First(polys), p))
  }

  /** The moved position is close enough to a steer point carrying `flag`. */
  predicate Reached(env: Env, steer: SteerTarget, pos: Vec3, flag: nat)
    requires flag > 0
  {
    HasFlag(steer.flags, flag) && InRange(pos, steer.pos, env.opts.slop, 1.0)
  }

  /** One iteration of the walk, entered with a non-empty corridor and room
      in the path. It stops without a new point when there is no steer
      target or the move fails; otherwise the corridor is fixed up and the
      position dropped onto it, and then it stops with the target appended
      when the end point is reached, crosses a reached off-mesh connection,
      or continues with the new position appended. */
  function Step(env: Env, st: Iter): (o: StepOutcome)
    requires |st.polys| > 0 && |st.path| < Cap(env)
    ensures o.Stop? ==> o.path == st.path || o.path == st.path + [env.target]
    ensures o.Continue? ==> |st.path| < |o.next.path| && o.next.path[..|st.path|] == st.path
    ensures Cap(env) % 2 == 0 && o.Continue? ==> |o.next.path| <= Cap(env)
    ensures SteerOf(env, st).None? ==> o == Stop(st.path)
    ensures SteerOf(env, st).Some? && MoveOf(env, st, SteerOf(env, st).value).None? ==> o == Stop(st.path)
    ensures SteerOf(env, st).Some? && MoveOf(env, st, SteerOf(env, st).value).Some? ==>
              var steer := SteerOf(env, st).value;
              var mv := MoveOf(env, st, steer).value;
              var polys := NextCorridor(env, st.polys, mv.visited);
              var pos := Landed(env, polys, mv.position);
              && (o.Stop? <==> Reached(env, steer, pos, StraightPathEnd))
              && (o.Stop? ==> o.path == st.path + [env.target])
              && (o.Continue? && Reached(env, steer, pos, StraightPathOffMeshConnection) ==>
                    o.next == OffMeshStep(env, st.path, pos, polys, steer.ref))
              && (o.Continue? && !Reached(env, steer, pos, StraightPathOffMeshConnection) ==>
                    o.next == Iter(pos, polys, st.path + [pos]))
  {
    match SteerOf(env, st)
    case None => Stop(st.path)
    case Some(steer) =>
      match MoveOf(env, st, steer)
      case None => Stop(st.path)
      case Some(mv) =>
        var polys := NextCorridor(env, st.polys, mv.visited);
        var pos := Landed(env, polys, mv.position);
        if Reached(env, steer, pos, StraightPathEnd) then
          Stop(PushCapped(st.path, env.target, Cap(env)))
        else if Reached(env, steer, pos, StraightPathOffMeshConnection) then
          Continue(OffMeshStep(env, st.path, pos, polys, steer.ref))
        else
          Continue(Iter(pos, polys, PushCapped(st.path, pos, Cap(env))))
  }

  /** The off-mesh branch: advance the corridor over the connection and, when
      the connection's end points are known, record the connection and jump
      to its far end; otherwise just append the current position. */
  function OffMeshStep(env: Env, path: seq<Vec3>, pos: Vec3, polys: seq<PolyRef>, offRef: PolyRef): (next: Iter)
    requires |polys| > 0 && |path| < Cap(env)
    ensures next.polys == AdvanceOverOffMesh(polys, offRef).polys
    ensures |path| < |next.path| && next.path[..|path|] == path
    ensures Cap(env) % 2 == 0 ==> |next.path| <= Cap(env)
    ensures var adv := AdvanceOverOffMesh(polys, offRef);
            env.nav.offMeshEndPoints(adv.prevRef, adv.polyRef).None? ==> next == Iter(pos, adv.polys, path + [pos])
    ensures var adv := AdvanceOverOffMesh(polys, offRef);
            env.nav.offMeshEndPoints(adv.prevRef, adv.polyRef).Some? ==>
              && next.pos == Landed(env, adv.polys, env.nav.offMeshEndPoints(adv.prevRef, adv.polyRef).value.end)
              && next.path[|path|] == pos
  {
    var adv := AdvanceOverOffMesh(polys, offRef);
    match env.nav.offMeshEndPoints(adv.prevRef, adv.polyRef)
    case None => Iter(pos, adv.polys, PushCapped(path, pos, Cap(env)))
    case Some(ep) => CrossConnection(env, path, pos, adv.polys, ep.end)
  }

  /** Recording a reached off-mesh connection at `pos` and moving to its far
      end `far`, dropped onto the first polygon of the advanced corridor. The
      recorded copies of `pos` are followed by the far end while the cap
      allows. */
  function CrossConnection(env: Env, path: seq<Vec3>, pos: Vec3, polys: seq<PolyRef>, far: Vec3): (next: Iter)
    requires |path| < Cap(env)
    ensures next.polys == polys
    ensures next.pos == Landed(env, polys, far)
    ensures |path| < |next.path| && next.path[..|path|] == path
    ensures next.path[|path|] == pos
    ensures next.path == PushCapped(RecordOffMesh(path, pos), next.pos, Cap(env))
    ensures Cap(env) % 2 == 0 ==> |next.path| <= Cap(env)
  {
    RecordOffMeshShape(path, pos);
    var jumped := Landed(env, polys, far);
    var recorded := RecordOffMesh(path, pos);
    Iter(jumped, polys, PushCapped(recorded, jumped, Cap(env)))
  }

  /** The `while` loop: runs while the corridor is non-empty and the path has
      room. */
  function Walk(env: Env, st: Iter): (r: seq<Vec3>)
    ensures |st.path| <= |r| && r[..|st.path|] == st.path
    ensures Cap(env) % 2 == 0 && |st.path| <= Cap(env) ==> |r| <= Cap(env)
    ensures |st.polys| == 0 || |st.path| >= Cap(env) ==> r == st.path
    decreases if |st.path| < Cap(env) then Cap(env) - |st.path| else 0
  {
    if |st.polys| == 0 || |st.path| >= Cap(env) then st.path
    else
      match Step(env, st)
      case Stop(p) => p
      case Continue(next) => Walk(env, next)
  }

  /** The walk from `start` along a non-empty corridor: the path begins with
      the start point and, under an even cap, never exceeds the cap. */
  function WalkFrom(env: Env, start: Vec3, polys: seq<PolyRef>): (r: seq<Vec3>)
    ensures |r| >= 1 && r[0] == start
    ensures Cap(env) > 0 && Cap(env) % 2 == 0 ==> |r| <= Cap(env)
  {
    var r := Walk(env, Iter(start, polys, [start]));
    assert r[..1] == [start];
    assert r[0] == r[..1][0];
    r
  }

  /** `computeSmoothPath(navMesh, navMeshQuery, start, end, options)`. */
  function ComputeSmoothPath(nav: NavQuery, sqrt: Sqrt, start: Vec3, end: Vec3, opts: Options): (r: PathResult)
    ensures r.success <==> QueriesSucceed(nav, start, end, opts)
    ensures !r.success ==> r.path == [] && r.error == Some(Setup(nav, start, end, opts).error)
    ensures r.success ==> r.error.None? && |r.path| >= 1 && r.path[0] == start
    ensures opts.maxSmoothPathPoints > 0 && opts.maxSmoothPathPoints % 2 == 0 ==> |r.path| <= opts.maxSmoothPathPoints
  {
    match Setup(nav, start, end, opts)
    case Failure(e) => PathResult(false, Some(e), [])
    case Success(plan) => PathResult(true, None, WalkFrom(Env(nav, sqrt, opts, plan.target), start, plan.polys))
  }
}

=== FILE: steering.dfy ===
/** `getSteerTarget`: the point along the straight path the smoother steers
    toward next. */
module Steering {
  import opened Wrappers
  import opened Geometry
  import opened NavMesh

  /** `maxSteerPoints` of the source; the straight-path oracle is asked for at
      most this many points. */
  const MaxSteerPoints: nat := 3

  /** The height band `getSteerTarget` passes to `inRange`. */
  const SteerHeightBand: real := 1000.0

  datatype SteerTarget = SteerTarget(pos: Vec3, flags: nat, ref: PolyRef)

  /** A straight-path point is skipped when it is not an off-mesh connection
      and lies within the proximity test of the current position. */
  predicate Skipped(p: StraightPoint, start: Vec3, minTargetDist: real) {
    !HasFlag(p.flags, StraightPathOffMeshConnection) && InRange(p.pos, start, minTargetDist, SteerHeightBand)
  }

  /** `ns` after the source's scan loop, started at `from`. */
  function SteerIndex(points: seq<StraightPoint>, start: Vec3, minTargetDist: real, from: nat): (ns: nat)
    requires from <= |points|
    ensures from <= ns <= |points|
    ensures forall k :: from <= k < ns ==> Skipped(points[k], start, minTargetDist)
    ensures ns < |points| ==> !Skipped(points[ns], start, minTargetDist)
    decreases |points| - from
  {
    if from < |points| && Skipped(points[from], start, minTargetDist)
    then SteerIndex(points, start, minTargetDist, from + 1)
    else from
  }

  /** The steer target chosen from a straight-path query result: None when the
      query failed or every point was skipped, otherwise the point, flags and
      ref of the first point that was not skipped. */
  function SelectSteerTarget(straight: Option<seq<StraightPoint>>, start: Vec3, minTargetDist: real): (r: Option<SteerTarget>)
    ensures straight.None? ==> r.None?
    ensures straight.Some? ==>
              (r.None? <==> forall k :: 0 <= k < |straight.value| ==> Skipped(straight.value[k], start, minTargetDist))
    ensures r.Some? ==> exists ns ::
              && 0 <= ns < |straight.value|
              && (forall k :: 0 <= k < ns ==> Skipped(straight.value[k], start, minTargetDist))
              && !Skipped(straight.value[ns], start, minTargetDist)
              && r.value == SteerTarget(straight.value[ns].pos, straight.value[ns].flags, straight.value[ns].ref)
  {
    match straight
    case None => None
    case Some(points) =>
      var ns := SteerIndex(points, start, minTargetDist, 0);
      if ns >= |points| then None
      else Some(SteerTarget(points[ns].pos, points[ns].flags, points[ns].ref))
  }

  /** `getSteerTarget(navMeshQuery, start, end, minTargetDist, pathPolys)`. */
  function GetSteerTarget(nav: NavQuery, start: Vec3, end: Vec3, minTargetDist: real, pathPolys: seq<PolyRef>): (r: Option<SteerTarget>)
    ensures nav.findStraightPath(start, end, pathPolys).None? ==> r.None?
    ensures nav.findStraightPath(start, end, pathPolys).Some? ==>
              (r.None? <==> forall k :: 0 <= k < |nav.findStraightPath(start, end, pathPolys).value| ==>
                              Skipped(nav.findStraightPath(start, end, pathPolys).value[k], start, minTargetDist))
    ensures r.Some? ==> nav.findStraightPath(start, end, pathPolys).Some? && exists ns ::
              && 0 <= ns < |nav.findStraightPath(start, end, pathPolys).value|
              && (forall k :: 0 <= k < ns ==> Skipped(nav.findStraightPath(start, end, pathPolys).value[k], start, minTargetDist))
              && !Skipped(nav.findStraightPath(start, end, pathPolys).value[ns], start, minTargetDist)
              && r.value == SteerTarget(nav.findStraightPath(start, end, pathPolys).value[ns].pos,
                                        nav.findStraightPath(start, end, pathPolys).value[ns].flags,
                                        nav.findStraightPath(start, end, pathPolys).value[ns].ref)
  {
    SelectSteerTarget(nav.findStraightPath(start, end, pathPolys), start, minTargetDist)
  }

  /** An off-mesh connection point is never skipped, however close it is, so
      a straight path starting with one always yields that point. */
  lemma OffMeshPointIsSteerTarget(points: seq<StraightPoint>, start: Vec3, minTargetDist: real)
    requires |points| > 0 && HasFlag(points[0].flags, StraightPathOffMeshConnection)
    ensures SelectSteerTarget(Some(points), start, minTargetDist)
            == Some(SteerTarget(points[0].pos, points[0].flags, points[0].ref))
  {
  }
}

=== FILE: wrappers.dfy ===
/** Optional values and results with an error, standing in for the source's
    `null` sentinels and `{ success: false, ... }` query results. */
module Wrappers {

  datatype Option<+T> = None | Some(value: T)

  datatype Result<+T, +E> = Success(value: T) | Failure(error: E)

  /** The first element of a sequence, or None for an empty one
      (JavaScript's `a[0]` on an empty array is `undefined`). */
  function First<T>(s: seq<T>): (r: Option<T>)
    ensures r.None? <==> |s| == 0
    ensures r.Some? ==> r.value == s[0]
  {
    if |s| == 0 then None else Some(s[0])
  }
}
